=== FILE: README.md ===
# A Dafny model of the backbone-vuex-tools resource cache

The model covers these parts of `backbone-vuex-tools`:

- The Vuex resource cache: the `getState` getter and the `setState` and `reactiveUpdate` mutations.
- The fetch/cache coordination of the `get`, `create`, `update` and `delete` actions.
- The relationship handler, which re-enters `get` through a relationship's `related` link.
- The sparse-fieldset test `includesFields`.
- The Backbone repository adapter's `get` and `set`.
- The JSON:API parser stand-in used by the adapter's tests: `camelize`, `parse` and `_parseWithNames`.

## Data model

- **`value.dfy`** (module `JsValue`) models JavaScript values.
  - An object is an ordered property list. A read returns the last binding of a key.
  - `Put` is property assignment. `Assign` is `Object.assign`. Both copy nested values wholesale.
  - `ToKey` is `String(v)`, which is also how a value becomes a property key.
  - `Entries` gives the own enumerable properties. For an array or a string these are its indices.
  - `Truthy` is JavaScript truthiness.
- **`store.dfy`** (module `Store`) models the Vuex state.
  - The state maps a type to a bucket, and a bucket maps an id to a `Handle`.
  - An arena maps each handle to the record's properties.
  - Object identity is the handle. "Mutating the cached object in place" overwrites the arena entry of a handle that stays where it was.
  - A view (`ResourceModel`, `BackboneModel`) is identified with the handle of the record it wraps.
- **`coordinator.dfy`** (module `Coordinator`) models the actions as synchronous steps.
  - The transport's answer is an input of type `Call<T>`: `Failed` or `Succeeded(value)`.
  - The denormaliser's output (`Subject.wire`) is an input in the same way.
  - Each outcome records the request that was issued, so "no fetch" is `request == None`.
  - A step that throws keeps what it had already committed (`Step.Threw` carries the store).
- **`includes_fields.dfy`** (module `IncludesFields`) models the sparse-fieldset test.
- **`parser.dfy`** (module `JsonApiParser`) models the parser stand-in.
- **`adapter.dfy`** (module `BackboneAdapter`) models the repository adapter. Its parser is a function parameter.

## Behaviours of the code worth knowing

- **`delete` never propagates an error.** Its `finally { return resource }` overrides a thrown transport error, so it does not escape. `Coordinator.Delete` returns the caller's subject on every path.
- **A failed `get` keeps earlier commits.** The primary resources and the included resources are committed one by one. A commit that throws part-way (a resource with a falsy `type`) resolves the call to null but leaves the earlier commits, and any in-place merge, in the cache. `Coordinator.FailedBatchKeepsEarlierCommits` exhibits this.
- **`create` does not merge.** It commits the created object with SET, which replaces any record already at that key. The key gets a new identity, and views of the old record no longer follow the cache.
- **`update` with nothing cached still sends the request.** The merge `Object.assign(undefined, …)` then throws, so the action resolves to null.
- **`update` and `delete` re-key by the cached record.** They look the record up by the caller's type and id. They commit or remove it under the cached record's own `type` and `id`.
- **The getter and `setState` read a missing id differently.** The getter defaults a missing id to `null` and reads the key `"null"`. `setState` stores it under `String(undefined)`, which is `"undefined"`.
- **The adapter's `set` can give a record a second key.** Suppose `set` is called with a null id and the getter answered with the sole record of the type. `set` then commits that record again under the key `"null"`, so it sits under two keys (`BackboneAdapter.SoleRecordGetsSecondKey`).
- **A list with an undefined id can lose a view's key.** A resource whose `id` is undefined is committed under `"undefined"`, but the getter looks it up under `"null"`. A later resource of the same list can then be stored over it. `Coordinator.CacheAllCommitsEach` therefore asks for defined ids.
- **`delete` can silently remove nothing.** The record is removed under its own `type`. A cached record without a truthy `type` makes `setState` throw, and the `finally` swallows that.
- **`camelize` is not idempotent.** It maps `"a--1"` to `"a-1"`, and `"a-1"` to `"a1"` (`JsonApiParser.CamelizeNotIdempotent`).

## Model

| member | source | states |
|---|---|---|
| JsValue.Assign | packages/vuex-store/src/store/index.ts:261-267 | after the overlay, each key reads the overlay's value when the overlay has the key and the base's value otherwise; the keys are the union of both |
| Store.MergeInto | packages/vuex-store/src/store/index.ts:167-170 | `Object.assign(inCache, resource)` overwrites the record's fields in place and keeps its other fields; every other record, every bucket and the record's handle are unchanged, and the cache stays well-formed |
| Store.GetState | packages/vuex-store/src/store/index.ts:37-49 | an exact hit on `state[type][String(id)]` (a missing id read as "null") is returned; on a miss, a record is returned iff the id is missing, null or "null" and the type's bucket holds exactly one record; any answer is a record of that bucket |
| Store.SetState | packages/vuex-store/src/store/index.ts:52-86 | throws iff the type is falsy or a SET has no resource; otherwise the bucket is created if missing, SET stores the resource at `String(id)`, DELETE removes that key, and no other key and no record changes |
| Store.ReactiveUpdate | packages/vuex-store/src/store/index.ts:87-111 | throws on a falsy type or an undefined key or value, and throws when there is no record or its `attributes` is not an object; otherwise only `attributes[String(key)]` of that record changes |
| Store.GetAfterSet | packages/vuex-store/src/store/index.ts:74-85 | the getter reads back what a SET stored under the same type and id |
| Store.GetUnaffectedBySet | packages/vuex-store/src/store/index.ts:74-85 | a SET leaves the getter's answer unchanged for every other type, and for every other id of its own type whose lookup cannot fall back to the sole record |
| Store.GetAfterDelete | packages/vuex-store/src/store/index.ts:79-81 | after a DELETE, the getter misses the key unless it falls back to the type's sole record |
| Store.ReactiveUpdateKeepsIdentity | packages/vuex-store/src/store/index.ts:105-110 | a single-field write changes the getter's answer for no key |
| IncludesFields.FindFieldsKey | packages/vuex-store/src/store/includes-fields.ts:19-21 | returns the first key starting with "fields", or none iff no key starts with it |
| IncludesFields.IncludesFields | packages/vuex-store/src/store/includes-fields.ts:1-27 | true iff the query is truthy and one of its keys starts with "fields" |
| IncludesFields.IncludesFieldsReadsOnlyKeys | packages/vuex-store/src/store/includes-fields.ts:19-21 | two queries with the same keys get the same answer, whatever their values |
| IncludesFields.OnlyObjectsAreSparse | packages/vuex-store/src/store/includes-fields.ts:18-24 | a query that is not a plain object is never sparse: an array's or a string's keys are digits |
| IncludesFields.IncludesFieldsExamples | packages/vuex-store/src/store/includes-fields.spec.ts:4-23 | undefined and `{}` are not sparse; `{include, filter, page[offset]}` is not sparse; adding `fields[kitty]` makes it sparse |
| Coordinator.CacheAndParse | packages/vuex-store/src/store/index.ts:159-187 | a sparse resource gets a fresh record that no bucket holds; a complete one is merged into the record the getter finds (same handle) or stored as a new record, and is committed under its own type and id; a falsy type throws and keeps the merge |
| Coordinator.CacheAll | packages/vuex-store/src/store/index.ts:192-195 | mapping the list keeps every existing key and the cache well-formed, and answers one view per resource |
| Coordinator.CommitKeepsPresentKeys | packages/vuex-store/src/store/index.ts:164-177 | committing a complete resource with a defined id never re-points a key that was already present |
| Coordinator.CacheAllCommitsEach | packages/vuex-store/src/store/index.ts:164-195 | for a complete list with defined ids that does not throw, the i-th view answered is the record stored under the i-th resource's own type and id |
| Coordinator.CacheAllKeepsPresentKeys | packages/vuex-store/src/store/index.ts:164-195 | a complete list with defined ids that does not throw re-points no key that was present before it |
| Coordinator.CacheAllCompletes | packages/vuex-store/src/store/index.ts:164-177 | a complete list whose resources all have a truthy type is cached without a throw |
| Coordinator.CacheAllSparse | packages/vuex-store/src/store/index.ts:183-186 | a sparse list leaves the buckets as they were and answers fresh records, in increasing handle order, each holding its resource; existing records are untouched |
| Coordinator.CacheAllStoresEach | packages/vuex-store/src/store/index.ts:164-177 | when a complete list is committed without a throw, every resource of it is found under its own type and id |
| Coordinator.Fetch | packages/vuex-store/src/store/index.ts:157-210 | every fetch records its request; a transport failure answers null with the cache untouched; no key is ever dropped |
| Coordinator.Get | packages/vuex-store/src/store/index.ts:114-211 | null and no request without a type; a cached single id answers its view with no request whatever the query; a fully cached id list answers the views in id order with no request; a partly cached list without a link answers null with no request; otherwise exactly one request, with id undefined for a list; a transport failure answers null and writes nothing |
| Coordinator.FetchedThenCached | packages/vuex-store/src/store/index.spec.ts:141-164 | after a complete fetch of a resource whose type and id read as the key asked for (the number 1 for the id "1"), the answer is a new record holding it, and every later `get` of the same key, sparse or not, answers the same view without a request |
| Coordinator.NullKeyAsksForSole | packages/vuex-store/src/store/index.ts:38-48 | among single ids only null and "null" read as the key "null", and both ask the getter for the sole record |
| Coordinator.SameKeyMisses | packages/vuex-store/src/store/index.ts:38-48 | when the getter misses for a type and id, it also misses for any type and defined id that read as the same strings |
| Coordinator.ListFetchedThenCached | packages/vuex-store/src/store/index.spec.ts:424-476 | a complete list fetched through the collection link answers one view per resource, and a later `get` of ids that read as the same keys (the number 1 for the id "1"), sparse or not, answers the same views without a request |
| Coordinator.CachedListAnswers | packages/vuex-store/src/store/index.ts:127-139 | a list whose every id is stored under its own key is answered view by view from the cache, with no request, whatever the options |
| Coordinator.SparseFetchIsNotCached | packages/vuex-store/src/store/index.ts:183-186 | a sparse fetch answers a fresh record holding the response, no bucket changes, and the getter still misses |
| Coordinator.SparseThenFull | packages/vuex-store/src/store/index.spec.ts:312-351 | sparse, then complete, then sparse again: the first two answers are different records, and the third is the cached one, answered without a request |
| Coordinator.IncludedAlwaysCached | packages/vuex-store/src/store/index.ts:200-205 | when a fetch resolves to something other than null, every included resource is cached under its own type and id, sparse query or not |
| Coordinator.BatchThrowKeepsStore | packages/vuex-store/src/store/index.ts:192-210 | a complete list that throws part-way answers null with the store that the list left behind |
| Coordinator.CommitThenThrow | packages/vuex-store/src/store/index.ts:172-177 | a list whose second resource has an empty type throws after committing the first |
| Coordinator.FailedBatchKeepsEarlierCommits | packages/vuex-store/src/store/index.ts:208-210 | a `get` that resolves to null can still have cached the resources committed before the throw |
| Coordinator.Create | packages/vuex-store/src/store/index.ts:212-236 | a view iff the denormaliser and the transport succeed and the created type is truthy; the view is a new record holding the created resource, committed under its own type and id; null leaves the cache untouched |
| Coordinator.Update | packages/vuex-store/src/store/index.ts:237-291 | sends the denormalised resource, or for `partial === false` that resource over the cached record; on success the answer is merged into the cached record in place and re-committed under its own type and id; with no cached record, a failed transport or a failed denormaliser the answer is null and the cache untouched; the re-commit changes no other key, and a null answer changes no key |
| Coordinator.UpdatePreservesIdentity | packages/vuex-store/src/store/index.ts:269-287 | after an update, the getter still finds the same record, now holding the server's fields over the old ones |
| Coordinator.Delete | packages/vuex-store/src/store/index.ts:292-321 | always returns the caller's resource; removes only the key of the cached record's own type and id, and only after the transport returned; a cached record without a truthy type of its own leaves the cache as it was; records themselves are never changed |
| Coordinator.CreateThenGet | packages/vuex-store/src/store/index.ts:223-232 | after a successful create, a `get` of the key the created resource describes answers the new record without a request, sparse or not |
| Coordinator.DeleteThenGetMisses | packages/vuex-store/src/store/index.ts:300-316 | after a completed delete of a record stored under the key it is asked for by, the getter misses |
| Coordinator.RelatedOptions | packages/vuex-store/src/store/index.ts:334-337 | the dispatched options carry the caller's query and the relationship's `related` link |
| Coordinator.RelationshipCall | packages/vuex-store/src/store/index.ts:325-349 | a to-many linkage dispatches the first element's type and all ids in order; a to-one linkage dispatches its own type and id; an empty list, a nullish element, nullish data or nullish links throw |
| Coordinator.RelationshipHandler | packages/vuex-store/src/store/index.ts:325-349 | the handler's result is the `get` of the dispatched call, or a type error exactly when the call cannot be built |
| Coordinator.CachedToManyNeedsNoFetch | packages/vuex-store/src/store/index.ts:330-338 | a to-many relationship whose linked records are all cached resolves to them in linkage order without a request |
| Coordinator.UncachedToOneFollowsRelatedLink | packages/vuex-store/src/store/index.ts:339-347 | an uncached to-one relationship is fetched through `links.related` with the caller's query |
| JsonApiParser.Camelize | packages/backbone-vuex-adapter/test-utils/test-parser-mock.ts:4-6 | a renamed key is never longer than the original; it starts with the upper-cased character after a leading hyphen match, or with the original first character |
| JsonApiParser.CamelizeIdentity | packages/backbone-vuex-adapter/test-utils/test-parser-mock.ts:4-6 | a key is returned unchanged iff it has no hyphen followed by `[a-z0-9]` |
| JsonApiParser.CamelizeShrinks | packages/backbone-vuex-adapter/test-utils/test-parser-mock.ts:4-6 | a key with a match gets strictly shorter |
| JsonApiParser.CamelizeIsCamel | packages/backbone-vuex-adapter/test-utils/test-parser-mock.ts:4-6 | in a renamed key, no hyphen is followed by a lower-case letter |
| JsonApiParser.CamelizePreimage | packages/backbone-vuex-adapter/test-utils/test-parser-mock.ts:4-6 | a renamed key without upper-case letters or digits equals the original key |
| JsonApiParser.CamelizeNotIdempotent | packages/backbone-vuex-adapter/test-utils/test-parser-mock.ts:4-6 | "a--1" becomes "a-1", which becomes "a1" |
| JsonApiParser.ParseItems | packages/backbone-vuex-adapter/test-utils/test-parser-mock.ts:32-36 | an array keeps its length and its non-object elements; each object or array element becomes an object whose keys are the camelized keys of the element's own properties |
| JsonApiParser.Fold | packages/backbone-vuex-adapter/test-utils/test-parser-mock.ts:27-45 | the result's keys are the accumulator's plus the renamed keys; a key reads the renamed value of the last property renamed to it, or the accumulator's value |
| JsonApiParser.ParseWithNames | packages/backbone-vuex-adapter/test-utils/test-parser-mock.ts:26-46 | a key is present iff some input key camelizes to it, and it holds the renamed value of the last such property |
| JsonApiParser.ParseValue | packages/backbone-vuex-adapter/test-utils/test-parser-mock.ts:33-41 | a value that is not an object is kept; an array keeps its length and its non-object elements, and each object element becomes an object with the camelized keys; an object's keys become the camelized keys of the original, each holding the renamed value of the last property renamed to it |
| JsonApiParser.ParseWithNamesKeys | packages/backbone-vuex-adapter/test-utils/test-parser-mock.ts:26-46 | the keys of the result are exactly the renamed keys of the input |
| JsonApiParser.PlainKeyPreimage | packages/backbone-vuex-adapter/test-utils/test-parser-mock.ts:4-6 | a key without upper-case letters, digits or matches is renamed to from itself only |
| JsonApiParser.ParseWithNamesPlainKey | packages/backbone-vuex-adapter/test-utils/test-parser-mock.ts:26-46 | such a key is present after renaming iff it was before, with its value renamed |
| JsonApiParser.ParseValueDeepCamel | packages/backbone-vuex-adapter/test-utils/test-parser-mock.ts:32-39 | keys are renamed at every nesting level, inside objects and inside the objects held by arrays |
| JsonApiParser.Hoist | packages/backbone-vuex-adapter/test-utils/test-parser-mock.ts:11-13 | with truthy attributes, the result holds exactly their own properties; otherwise it is empty |
| JsonApiParser.Stamp | packages/backbone-vuex-adapter/test-utils/test-parser-mock.ts:14-15 | `id` and `_type` come from the resource, overriding attributes of those names; the other keys are the hoisted attributes |
| JsonApiParser.Flatten | packages/backbone-vuex-adapter/test-utils/test-parser-mock.ts:9-22 | `_self` is set iff `links` and `links.self` are truthy; `relationships` is set iff the resource's relationships are truthy; the rest is the stamped attributes |
| JsonApiParser.Parse | packages/backbone-vuex-adapter/test-utils/test-parser-mock.ts:9-24 | after parsing, `id` and `_type` hold the resource's renamed id and type, whatever the attributes hold under those names |
| JsonApiParser.ParseSelf | packages/backbone-vuex-adapter/test-utils/test-parser-mock.ts:16-18 | `_self` is present iff there is a truthy self link or an attribute `_self`, and the link wins |
| JsonApiParser.ParseRelationships | packages/backbone-vuex-adapter/test-utils/test-parser-mock.ts:19-21 | `relationships` is present iff the resource has truthy relationships or such an attribute, and the resource's relationships win |
| JsonApiParser.ParseHoistsAttributes | packages/backbone-vuex-adapter/test-utils/test-parser-mock.ts:11-13 | every attribute key appears renamed at the top level |
| JsonApiParser.ParseKeepsPlainAttribute | packages/backbone-vuex-adapter/test-utils/test-parser-mock.ts:11-13 | an attribute with a plain name reads back with its value renamed |
| JsonApiParser.ParseIsDeepCamel | packages/backbone-vuex-adapter/test-utils/test-parser-mock.ts:9-24 | every key of the parsed resource, at every level, is renamed |
| BackboneAdapter.AdapterGet | packages/backbone-vuex-adapter/src/index.ts:25-31 | null exactly when the getter finds nothing, otherwise the view of the record it finds |
| BackboneAdapter.AdapterSet | packages/backbone-vuex-adapter/src/index.ts:33-58 | on a miss, a new record holding exactly the parsed resource is committed under the given type and id; on a hit, the cached record's top-level fields are overwritten in place and it is re-committed; other keys are untouched; a falsy type throws and keeps the merge |
| BackboneAdapter.SetThenGet | packages/backbone-vuex-adapter/src/index.spec.ts:107-123 | after `set`, `get` of the same key answers the committed record; on a hit it is the record cached before, so repeated gets return the same instance |
| BackboneAdapter.MergeReplacesNested | packages/backbone-vuex-adapter/src/index.ts:46-48 | a field of the parsed resource replaces the cached field wholesale, even when it holds an array or object |
| BackboneAdapter.SeatsBecomeEmpty | packages/backbone-vuex-adapter/src/index.spec.ts:138-166 | a cached `seats` list set to `[]` ends up `[]`, and the other fields are kept |
| BackboneAdapter.SoleRecordGetsSecondKey | packages/backbone-vuex-adapter/src/index.ts:34-56 | a `set` with a null id that the getter answered with the sole record commits that record under "null" as well |

## Left out

- Vuex itself is not modelled: the store object, `commit`/`dispatch` routing and the `async`/`await` scheduling. Each action is one synchronous step, so concurrent interleavings are out of scope.
- `buildRegisterStoreUpdateFunc` (packages/vuex-store/src/store/index.ts:18-27) is not a member of its own. It only returns a closure that commits `reactiveUpdate` with its four arguments unchanged, which `Store.ReactiveUpdate` models.
- The transport (`apiClient.get/create/update/delete`) is not modelled. Each call is an input that either answers or fails.
- `factory.toRawResourceModel` is not modelled. It is an input as well.
- The adapter's parser (`@atofstryker/json-api-parser`) is not modelled. It is a function parameter.
- The reactivity adapter, Backbone models and the WeakMap of views are reduced to "a view is the handle of its record". Their garbage collection and proxying are external.
- Inherited (prototype) properties are not modelled. `Entries` gives only own properties, and an array's `length` is not a key.
- `Object.keys` order for integer-like keys is not modelled. The model keeps insertion order.
- Numbers are integers only. Floating-point values, `NaN` and their string forms are not modelled.
- Responses whose `data` is neither an object nor an array, and `included` values that are not arrays, are not modelled.
- JsonApiParser.Fold: takes each property's own value, where `_parseWithNames` reads `obj[key]`. The two agree on objects without repeated keys, which is every object JavaScript can build.
- Store.SetState: takes only the two mutation kinds the callers use. The code's `default` branch also stores the resource for any other mutation tag, and that path is not modelled.
- Store.ReactiveUpdate: treats an array `attributes` as a throw. In JavaScript the write onto an array succeeds; a write onto a primitive throws in strict module code, as the model does.
- Coordinator.Update: takes `options.partial` as a value. The code's defaulting of a missing options object, and its writing `partial` back into the caller's options, are not modelled.
- Create, update and delete with a transport whose answer is not an object are not modelled.

=== FILE: adapter.dfy ===
/** The Backbone repository adapter of
    packages/backbone-vuex-adapter/src/index.ts: `get` hands out the view of
    the record the store's getter finds, and `set` inserts a parsed resource
    on a miss or merges it into the cached record on a hit. The parser is a
    parameter: the adapter uses the external JSON:API parser library, which
    is not part of this model.
    A Backbone model is identified with the handle of the record it wraps. */
module BackboneAdapter {
  import opened JsValue
  import opened Store

  /** `get(type, id)`: the view of the cached record, or null. */
  function AdapterGet(s: Store, typ: Value, id: Value): (r: Option<Handle>)
    ensures r.None? <==> GetState(s, typ, id).None?
    ensures r.Some? ==> GetState(s, typ, id) == Some(r.value)
  {
    match GetState(s, typ, id)
    case Some(h) => Some(h)
    case None => None
  }

  /** `set(rawResource, type, id)`. On a miss the parsed resource is
      committed as a new record; on a hit its top-level fields are assigned
      onto the cached record, which is committed again. A commit that throws
      (falsy type) keeps the merge already made. */
  function AdapterSet(s: Store, raw: Props, typ: Value, id: Value, parse: Props -> Props): (r: Step<()>)
    requires Valid(s)
    ensures Valid(r.store)
    ensures r.Done? <==> Truthy(typ)
    ensures r.Done? ==> Entry(r.store, ToKey(typ), ToKey(id)).Some?
    ensures r.Done? ==> forall t, k :: (t != ToKey(typ) || k != ToKey(id)) ==> Entry(r.store, t, k) == Entry(s, t, k)
    ensures r.Threw? ==> r.store.buckets == s.buckets
    // miss: a new record holding exactly the parsed resource
    ensures GetState(s, typ, id).None? && r.Done? ==>
              var h := Entry(r.store, ToKey(typ), ToKey(id)).value;
              h !in s.arena && r.store.arena == s.arena[h := parse(raw)]
    ensures GetState(s, typ, id).None? && r.Threw? ==> r.store == s
    // hit: the same record, its fields overwritten one level deep
    ensures GetState(s, typ, id).Some? ==>
              var h := GetState(s, typ, id).value;
              && (r.Done? ==> Entry(r.store, ToKey(typ), ToKey(id)) == Some(h))
              && r.store.arena.Keys == s.arena.Keys
              && (forall h' :: h' in s.arena && h' != h ==> r.store.arena[h'] == s.arena[h'])
              && (forall k :: Lookup(r.store.arena[h], k) ==
                              (if Has(parse(raw), k) then Lookup(parse(raw), k) else Lookup(s.arena[h], k)))
  {
    var parsed := parse(raw);
    match GetState(s, typ, id)
    case None =>
      var a := Alloc(s, parsed);
      (match SetState(a.store, Set, typ, id, Some(a.handle))
       case Ok(s2) => Done((), s2)
       case Err(_) => Threw(s))
    case Some(h) =>
      var s1 := MergeInto(s, h, parsed);
      (match SetState(s1, Set, typ, id, Some(h))
       case Ok(s2) => Done((), s2)
       case Err(_) => Threw(s1))
  }

  /** After a `set`, `get` of the same key answers the committed record, and
      on a hit that is the record that was cached before: its identity is
      kept. */
  lemma SetThenGet(s: Store, raw: Props, typ: Value, id: Value, parse: Props -> Props)
    requires Valid(s) && Truthy(typ) && !id.Undefined?
    ensures var r := AdapterSet(s, raw, typ, id, parse);
            && AdapterGet(r.store, typ, id) == Entry(r.store, ToKey(typ), ToKey(id))
            && AdapterGet(r.store, typ, id).Some?
            && (AdapterGet(s, typ, id).Some? ==> AdapterGet(r.store, typ, id) == AdapterGet(s, typ, id))
            && (AdapterGet(s, typ, id).None? ==> AdapterGet(r.store, typ, id).value !in s.arena)
  {
  }

  /** A merge replaces nested values wholesale: a field of the parsed
      resource holding an array or object takes the new value, whatever the
      cached record held there. */
  lemma MergeReplacesNested(s: Store, raw: Props, typ: Value, id: Value, parse: Props -> Props, k: string)
    requires Valid(s) && GetState(s, typ, id).Some?
    requires Has(parse(raw), k)
    ensures var h := GetState(s, typ, id).value;
            Lookup(AdapterSet(s, raw, typ, id, parse).store.arena[h], k) == Lookup(parse(raw), k)
  {
  }

  /** The fixture of the adapter's tests: a cached record whose `seats` held
      a list is set with an empty list and ends with the empty list. */
  lemma SeatsBecomeEmpty(s: Store, typ: Value, id: Value, h: Handle)
    requires Valid(s) && Truthy(typ) && GetState(s, typ, id) == Some(h)
    requires s.arena[h] == [Prop("id", Str("1")), Prop("seats", Arr([Str("front"), Str("back")]))]
    ensures var parsed := [Prop("seats", Arr([]))];
            var r := AdapterSet(s, parsed, typ, id, p => p);
            && r.Done?
            && Lookup(r.store.arena[h], "seats") == Arr([])
            && Lookup(r.store.arena[h], "id") == Str("1")
  {
    var parsed := [Prop("seats", Arr([]))];
    var before := s.arena[h];
    assert Keys(parsed) == ["seats"];
    assert Lookup(parsed, "seats") == Arr([]);
    assert Keys(before[1..]) == ["seats"];
    assert Lookup(before, "id") == Str("1");
  }

  /** When the getter answered a missing id with the sole record of the type,
      `set` commits that record again under the key "null": afterwards the
      same record sits under two keys of the bucket. */
  lemma SoleRecordGetsSecondKey(s: Store, typ: Value, h: Handle, k: string, raw: Props, parse: Props -> Props)
    requires Valid(s) && Truthy(typ) && k != "null"
    requires ToKey(typ) in s.buckets && s.buckets[ToKey(typ)] == map[k := h]
    ensures var r := AdapterSet(s, raw, typ, Null, parse);
            && r.Done?
            && Entry(r.store, ToKey(typ), k) == Some(h)
            && Entry(r.store, ToKey(typ), "null") == Some(h)
  {
    assert s.buckets[ToKey(typ)].Keys == {k};
    assert GetState(s, typ, Null) == Some(h);
  }
}

=== FILE: coordinator.dfy ===
/** The actions of packages/vuex-store/src/store/index.ts: `get`, `create`,
    `update`, `delete`, and the relationship handler that re-enters `get`.

    Each action is one synchronous step. The transport's answer is an input
    (`Call<...>`): it is consulted only when the action issues a request, and
    the outcome records the request that was issued, so "no fetch" is
    `request == None`. The denormaliser `factory.toRawResourceModel` is an
    input too (`Subject.wire`). A view returned by the reactivity adapter is
    identified with the handle of the record it wraps.
 */
module Coordinator {
  import opened JsValue
  import opened Store
  import IncludesFields

  /** The primary data of a response: one resource or a list. */
  datatype Payload = Single(resource: Props) | Batch(resources: seq<Props>)

  /** A successful `apiClient.get`: primary data and, if the response had
      them, the `included` resources of the compound document. */
  datatype Response = Response(data: Payload, included: Option<seq<Props>>)

  /** The arguments `apiClient.get(type, id, options)` is called with. */
  datatype Request = Request(typ: Value, id: Value, options: Value)

  /** What an action resolves to: null, the view of one record, or views of
      several records. */
  datatype Answer = NullAnswer | View(handle: Handle) | Views(handles: seq<Handle>)

  datatype GetOutcome = GetOutcome(answer: Answer, request: Option<Request>, store: Store)

  /** The resource an action is given, through what the action reads of it:
      its `type` and `id`, and what `factory.toRawResourceModel` makes of it. */
  datatype Subject = Subject(typ: Value, id: Value, wire: Call<Props>)

  /** Outcome of `create` and `update`: the answer, the payload sent to the
      transport if one was sent, and the resulting store. */
  datatype WriteOutcome = WriteOutcome(answer: Answer, sent: Option<Props>, store: Store)

  /** Outcome of `delete`: the reference handed back to the caller. */
  datatype DeleteOutcome = DeleteOutcome(returned: Subject, sent: Option<Props>, store: Store)

  function ResourceType(res: Props): Value { Lookup(res, "type") }

  function ResourceId(res: Props): Value { Lookup(res, "id") }

  /** `options?.k` */
  function Opt(options: Value, k: string): Value
  {
    if IsNullish(options) then Undefined else Member(options, k)
  }

  /** The cache key a resource is committed under by `setState`. */
  function StoredAt(s: Store, res: Props): Option<Handle>
  {
    Entry(s, ToKey(ResourceType(res)), ToKey(ResourceId(res)))
  }

  /** No key present in `s` is missing from `s'`. */
  ghost predicate KeysKept(s: Store, s': Store)
  {
    forall t, k :: Entry(s, t, k).Some? ==> Entry(s', t, k).Some?
  }

  // ---------------------------------------------------------------------------
  // get
  // ---------------------------------------------------------------------------

  /** `cacheAndParseResource(resource, isPartial)`. A sparse resource is not
      cached: it gets an identity of its own. Otherwise it is merged into the
      record the getter finds for its type and id, or stored as it is, and
      committed with SET; a SET that throws (falsy type) keeps the merge. */
  function CacheAndParse(s: Store, res: Props, isPartial: bool): (r: Step<Handle>)
    requires Valid(s)
    ensures Valid(r.store) && KeysKept(s, r.store)
    ensures isPartial ==> && r.Done? && r.value !in s.arena
                          && r.store.buckets == s.buckets
                          && r.store.arena == s.arena[r.value := res]
    ensures !isPartial ==> (r.Done? <==> Truthy(ResourceType(res)))
    ensures !isPartial && r.Done? ==>
              && StoredAt(r.store, res) == Some(r.value)
              && forall t, k :: (t != ToKey(ResourceType(res)) || k != ToKey(ResourceId(res))) ==>
                                Entry(r.store, t, k) == Entry(s, t, k)
    ensures !isPartial && GetState(s, ResourceType(res), ResourceId(res)).Some? ==>
              var h := GetState(s, ResourceType(res), ResourceId(res)).value;
              && (r.Done? ==> r.value == h)
              && r.store.arena.Keys == s.arena.Keys
              && (forall h' :: h' in s.arena && h' != h ==> r.store.arena[h'] == s.arena[h'])
              && (forall k :: Lookup(r.store.arena[h], k) ==
                               (if Has(res, k) then Lookup(res, k) else Lookup(s.arena[h], k)))
    ensures !isPartial && GetState(s, ResourceType(res), ResourceId(res)).None? ==>
              && (r.Threw? ==> r.store == s)
              && (r.Done? ==> r.value !in s.arena && r.store.arena == s.arena[r.value := res])
  {
    if isPartial then
      var a := Alloc(s, res);
      Done(a.handle, a.store)
    else
      match GetState(s, ResourceType(res), ResourceId(res))
      case Some(h) =>
        var s1 := MergeInto(s, h, res);
        (match SetState(s1, Set, ResourceType(res), ResourceId(res), Some(h))
         case Ok(s2) => Done(h, s2)
         case Err(_) => Threw(s1))
      case None =>
        var a := Alloc(s, res);
        (match SetState(a.store, Set, ResourceType(res), ResourceId(res), Some(a.handle))
         case Ok(s2) => Done(a.handle, s2)
         case Err(_) => Threw(s))
  }

  /** `resources.map(resource => cacheAndParseResource(resource, isPartial))`,
      which stops at the first throw. */
  function CacheAll(s: Store, rs: seq<Props>, isPartial: bool): (r: Step<seq<Handle>>)
    requires Valid(s)
    ensures Valid(r.store) && KeysKept(s, r.store) && r.store.next >= s.next
    ensures r.Done? ==> |r.value| == |rs|
    decreases |rs|
  {
    if rs == [] then Done([], s)
    else
      match CacheAndParse(s, rs[0], isPartial)
      case Threw(s1) => Threw(s1)
      case Done(h, s1) =>
        match CacheAll(s1, rs[1..], isPartial)
        case Threw(s2) => Threw(s2)
        case Done(hs, s2) => Done([h] + hs, s2)
  }

  /** A sparse list is never cached: every resource gets a fresh handle of
      its own, holding exactly that resource, and no bucket changes. */
  lemma {:induction false} CacheAllSparse(s: Store, rs: seq<Props>)
    requires Valid(s)
    ensures var r := CacheAll(s, rs, true);
            && r.Done? && r.store.buckets == s.buckets
            && (forall i :: 0 <= i < |rs| ==> s.next <= r.value[i] < r.store.next)
            && (forall i, j :: 0 <= i < j < |rs| ==> r.value[i] < r.value[j])
            && (forall i :: 0 <= i < |rs| ==> r.value[i] in r.store.arena && r.store.arena[r.value[i]] == rs[i])
            && (forall h :: h in s.arena ==> h in r.store.arena && r.store.arena[h] == s.arena[h])
    decreases |rs|
  {
    if rs != [] {
      var first := CacheAndParse(s, rs[0], true);
      CacheAllSparse(first.store, rs[1..]);
      var rest := CacheAll(first.store, rs[1..], true);
      var r := CacheAll(s, rs, true);
      assert r.value == [first.value] + rest.value;
      assert first.value == s.next && first.store.next == s.next + 1;
      forall i | 0 <= i < |rs|
        ensures r.value[i] in r.store.arena && r.store.arena[r.value[i]] == rs[i]
      {
        if i > 0 {
          assert r.value[i] == rest.value[i - 1];
        }
      }
    }
  }

  /** A complete list is cached: after it, every resource of the list has a
      record under the key `setState` committed it to. */
  lemma {:induction false} CacheAllStoresEach(s: Store, rs: seq<Props>)
    requires Valid(s)
    ensures var r := CacheAll(s, rs, false);
            r.Done? ==> forall i :: 0 <= i < |rs| ==> StoredAt(r.store, rs[i]).Some?
    decreases |rs|
  {
    if rs != [] {
      var first := CacheAndParse(s, rs[0], false);
      if first.Done? {
        CacheAllStoresEach(first.store, rs[1..]);
        var r := CacheAll(s, rs, false);
        if r.Done? {
          forall i | 0 <= i < |rs| ensures StoredAt(r.store, rs[i]).Some? {
            if i > 0 {
              assert rs[i] == rs[1..][i - 1];
            }
          }
        }
      }
    }
  }

  /** Committing a complete resource whose id is defined never re-points a
      key that was already present: when its own key is present the getter
      finds that very record and the commit stores it again. */
  lemma CommitKeepsPresentKeys(s: Store, res: Props)
    requires Valid(s) && !ResourceId(res).Undefined?
    ensures var r := CacheAndParse(s, res, false);
            r.Done? ==> forall t, k :: Entry(s, t, k).Some? ==> Entry(r.store, t, k) == Entry(s, t, k)
  {
    var r := CacheAndParse(s, res, false);
    var key := ToKey(ResourceId(res));
    assert GetterId(ResourceId(res)) == ResourceId(res);
    if r.Done? && Entry(s, ToKey(ResourceType(res)), key).Some? {
      assert GetState(s, ResourceType(res), ResourceId(res)) == Entry(s, ToKey(ResourceType(res)), key);
    }
  }

  /** A complete list whose ids are all defined re-points no key that was
      present before it. */
  lemma {:induction false} CacheAllKeepsPresentKeys(s: Store, rs: seq<Props>)
    requires Valid(s)
    requires forall i :: 0 <= i < |rs| ==> !ResourceId(rs[i]).Undefined?
    ensures var r := CacheAll(s, rs, false);
            r.Done? ==> forall t, k :: Entry(s, t, k).Some? ==> Entry(r.store, t, k) == Entry(s, t, k)
    decreases |rs|
  {
    if rs != [] {
      var first := CacheAndParse(s, rs[0], false);
      if first.Done? {
        CommitKeepsPresentKeys(s, rs[0]);
        assert forall i :: 0 <= i < |rs[1..]| ==> rs[1..][i] == rs[i + 1];
        CacheAllKeepsPresentKeys(first.store, rs[1..]);
      }
    }
  }

  /** A complete list whose ids are all defined is cached view by view: the
      i-th view answered is the record stored under the i-th resource's own
      type and id. With an undefined id this fails: the resource is stored
      under "undefined" but looked up under "null", so a later resource of
      the list can replace it. */
  lemma {:induction false} CacheAllCommitsEach(s: Store, rs: seq<Props>)
    requires Valid(s)
    requires forall i :: 0 <= i < |rs| ==> !ResourceId(rs[i]).Undefined?
    ensures var r := CacheAll(s, rs, false);
            r.Done? ==> forall i :: 0 <= i < |rs| ==> StoredAt(r.store, rs[i]) == Some(r.value[i])
    decreases |rs|
  {
    if rs != [] {
      var first := CacheAndParse(s, rs[0], false);
      if first.Done? {
        var tail := rs[1..];
        assert forall i :: 0 <= i < |tail| ==> tail[i] == rs[i + 1];
        CacheAllCommitsEach(first.store, tail);
        CacheAllKeepsPresentKeys(first.store, tail);
        var rest := CacheAll(first.store, tail, false);
        if rest.Done? {
          CacheAllStep(s, rs, false);
          StoredEachCons(rest.store, rs, first.value, rest.value);
        }
      }
    }
  }

  /** Stitching the first resource's view onto the views of the rest. */
  lemma StoredEachCons(st: Store, rs: seq<Props>, h: Handle, hs: seq<Handle>)
    requires |rs| == |hs| + 1
    requires StoredAt(st, rs[0]) == Some(h)
    requires forall i :: 0 <= i < |hs| ==> StoredAt(st, rs[1..][i]) == Some(hs[i])
    ensures forall i :: 0 <= i < |rs| ==> StoredAt(st, rs[i]) == Some(([h] + hs)[i])
  {
    forall i | 0 <= i < |rs| ensures StoredAt(st, rs[i]) == Some(([h] + hs)[i]) {
      if i > 0 {
        assert rs[i] == rs[1..][i - 1];
      }
    }
  }

  /** One step of the mapping: the first resource's view, then the rest's. */
  lemma CacheAllStep(s: Store, rs: seq<Props>, isPartial: bool)
    requires Valid(s) && rs != []
    ensures var first := CacheAndParse(s, rs[0], isPartial);
            first.Done? ==>
              var rest := CacheAll(first.store, rs[1..], isPartial);
              rest.Done? ==> CacheAll(s, rs, isPartial) == Done([first.value] + rest.value, rest.store)
  {
  }

  /** Everything after `apiClient.get` returned or threw. */
  function Fetch(s: Store, req: Request, reply: Call<Response>): (o: GetOutcome)
    requires Valid(s)
    ensures Valid(o.store) && KeysKept(s, o.store)
    ensures o.request == Some(req)
    ensures reply.Failed? ==> o.answer == NullAnswer && o.store == s
  {
    match reply
    case Failed => GetOutcome(NullAnswer, Some(req), s)
    case Succeeded(Response(data, included)) =>
      var sparse := IncludesFields.IncludesFields(Opt(req.options, "query"));
      var primary: Step<Answer> :=
        match data
        case Single(res) =>
          (match CacheAndParse(s, res, sparse)
           case Done(h, s1) => Done(View(h), s1)
           case Threw(s1) => Threw(s1))
        case Batch(rs) =>
          (match CacheAll(s, rs, sparse)
           case Done(hs, s1) => Done(Views(hs), s1)
           case Threw(s1) => Threw(s1));
      match primary
      case Threw(s1) => GetOutcome(NullAnswer, Some(req), s1)
      case Done(answer, s1) =>
        match included
        case None => GetOutcome(answer, Some(req), s1)
        case Some(incs) =>
          // included resources are complete by contract: never sparse
          match CacheAll(s1, incs, false)
          case Threw(s2) => GetOutcome(NullAnswer, Some(req), s2)
          case Done(_, s2) => GetOutcome(answer, Some(req), s2)
  }

  /** Every id of a list is found by the getter. */
  predicate AllCached(s: Store, typ: Value, ids: seq<Value>)
  {
    forall i :: 0 <= i < |ids| ==> GetState(s, typ, ids[i]).Some?
  }

  /** The `get` action. */
  function Get(s: Store, typ: Value, id: Value, options: Value, reply: Call<Response>): (o: GetOutcome)
    requires Valid(s)
    ensures Valid(o.store) && KeysKept(s, o.store)
    // no type: null, no request
    ensures !Truthy(typ) ==> o == GetOutcome(NullAnswer, None, s)
    // a single id the getter finds: its view, whatever the query, no request
    ensures Truthy(typ) && !id.Arr? && GetState(s, typ, id).Some? ==>
              o == GetOutcome(View(GetState(s, typ, id).value), None, s)
    // a list whose every id is cached: the views in the order of the ids, no request
    ensures Truthy(typ) && id.Arr? && AllCached(s, typ, id.items) ==>
              && o.request.None? && o.store == s && o.answer.Views?
              && |o.answer.handles| == |id.items|
              && forall i :: 0 <= i < |id.items| ==> Some(o.answer.handles[i]) == GetState(s, typ, id.items[i])
    // a list not fully cached and no link: null, no request
    ensures Truthy(typ) && id.Arr? && !AllCached(s, typ, id.items) && !Truthy(Opt(options, "link")) ==>
              o == GetOutcome(NullAnswer, None, s)
    // otherwise a request, for the collection when a list was asked for
    ensures o.request.Some? <==> && Truthy(typ)
                                 && (if id.Arr? then !AllCached(s, typ, id.items) && Truthy(Opt(options, "link"))
                                     else GetState(s, typ, id).None?)
    ensures o.request.Some? ==> o.request.value == Request(typ, if id.Arr? then Undefined else id, options)
    ensures o.request.None? ==> o.store == s
    // a transport failure: null, nothing written
    ensures reply.Failed? ==> o.store == s && (o.request.Some? ==> o.answer == NullAnswer)
  {
    if !Truthy(typ) then GetOutcome(NullAnswer, None, s)
    else if id.Arr? then
      if AllCached(s, typ, id.items) then
        GetOutcome(Views(seq(|id.items|, i requires 0 <= i < |id.items| => GetState(s, typ, id.items[i]).value)), None, s)
      else if !Truthy(Opt(options, "link")) then GetOutcome(NullAnswer, None, s)
      else Fetch(s, Request(typ, Undefined, options), reply)
    else
      match GetState(s, typ, id)
      case Some(h) => GetOutcome(View(h), None, s)
      case None => Fetch(s, Request(typ, id, options), reply)
  }

  // ---------------------------------------------------------------------------
  // create, update, delete
  // ---------------------------------------------------------------------------

  /** The `create` action: on success the created resource is committed with
      SET as it is (an earlier record at its key is replaced, not merged). */
  function Create(s: Store, wire: Call<Props>, reply: Call<Props>): (o: WriteOutcome)
    requires Valid(s)
    ensures Valid(o.store)
    ensures o.sent == (if wire.Succeeded? then Some(wire.value) else None)
    ensures o.answer.NullAnswer? ==> o.store == s
    ensures o.answer.View? <==> wire.Succeeded? && reply.Succeeded? && Truthy(ResourceType(reply.value))
    ensures o.answer.View? ==>
              && o.answer.handle !in s.arena
              && o.store.arena == s.arena[o.answer.handle := reply.value]
              && StoredAt(o.store, reply.value) == Some(o.answer.handle)
              && forall t, k :: (t != ToKey(ResourceType(reply.value)) || k != ToKey(ResourceId(reply.value))) ==>
                                Entry(o.store, t, k) == Entry(s, t, k)
    ensures !o.answer.Views?
  {
    match wire
    case Failed => WriteOutcome(NullAnswer, None, s)
    case Succeeded(raw) =>
      match reply
      case Failed => WriteOutcome(NullAnswer, Some(raw), s)
      case Succeeded(created) =>
        var a := Alloc(s, created);
        match SetState(a.store, Set, ResourceType(created), ResourceId(created), Some(a.handle))
        case Ok(s2) => WriteOutcome(View(a.handle), Some(raw), s2)
        case Err(_) => WriteOutcome(NullAnswer, Some(raw), s)
  }

  /** `options.partial` defaults to true: only an explicit `false` asks for a
      full replacement. */
  predicate IsPartialUpdate(partial: Value)
  {
    partial != Bool(false)
  }

  /** The properties of the record the getter finds, or none. */
  function CachedProps(s: Store, h: Option<Handle>): Props
    requires h.Some? ==> h.value in s.arena
  {
    if h.Some? then s.arena[h.value] else []
  }

  /** The `update` action. The payload is the denormalised resource, or for a
      full update `{...cached, ...denormalised}`. The server's answer is merged
      into the cached record in place and re-committed; with nothing cached,
      the merge throws and the answer is null. */
  function Update(s: Store, subject: Subject, partial: Value, reply: Call<Props>): (o: WriteOutcome)
    requires Valid(s)
    ensures Valid(o.store)
    ensures o.sent.Some? <==> subject.wire.Succeeded?
    ensures o.sent.Some? && IsPartialUpdate(partial) ==> o.sent.value == subject.wire.value
    ensures o.sent.Some? && !IsPartialUpdate(partial) ==>
              var cached := CachedProps(s, GetState(s, subject.typ, subject.id));
              forall k :: Lookup(o.sent.value, k) ==
                          (if Has(subject.wire.value, k) then Lookup(subject.wire.value, k) else Lookup(cached, k))
    ensures subject.wire.Failed? || reply.Failed? || GetState(s, subject.typ, subject.id).None? ==>
              o.answer == NullAnswer && o.store == s
    ensures o.answer.View? ==> Some(o.answer.handle) == GetState(s, subject.typ, subject.id)
    ensures reply.Succeeded? && subject.wire.Succeeded? && GetState(s, subject.typ, subject.id).Some? ==>
              var h := GetState(s, subject.typ, subject.id).value;
              && o.store.arena.Keys == s.arena.Keys
              && (forall h' :: h' in s.arena && h' != h ==> o.store.arena[h'] == s.arena[h'])
              && (forall k :: Lookup(o.store.arena[h], k) ==
                              (if Has(reply.value, k) then Lookup(reply.value, k) else Lookup(s.arena[h], k)))
              && (o.answer == View(h) <==> Truthy(ResourceType(o.store.arena[h])))
              && (o.answer.View? ==> StoredAt(o.store, o.store.arena[h]) == Some(h))
    // the re-commit touches only the key of the merged record's own type and id
    ensures o.answer.View? ==>
              var rec := o.store.arena[o.answer.handle];
              forall t, k :: (t != ToKey(ResourceType(rec)) || k != ToKey(ResourceId(rec))) ==>
                             Entry(o.store, t, k) == Entry(s, t, k)
    // a null answer commits nothing, though a merge made before a throw stays
    ensures o.answer.NullAnswer? ==> o.store.buckets == s.buckets && o.store.next == s.next
    ensures !o.answer.Views?
  {
    match subject.wire
    case Failed => WriteOutcome(NullAnswer, None, s)
    case Succeeded(raw) =>
      var cached := GetState(s, subject.typ, subject.id);
      var payload := if IsPartialUpdate(partial) then raw else Assign(Assign([], CachedProps(s, cached)), raw);
      match reply
      case Failed => WriteOutcome(NullAnswer, Some(payload), s)
      case Succeeded(updated) =>
        match cached
        case None => WriteOutcome(NullAnswer, Some(payload), s)
        case Some(h) =>
          var s1 := MergeInto(s, h, updated);
          var rec := s1.arena[h];
          match SetState(s1, Set, ResourceType(rec), ResourceId(rec), Some(h))
          case Ok(s2) => WriteOutcome(View(h), Some(payload), s2)
          case Err(_) => WriteOutcome(NullAnswer, Some(payload), s1)
  }

  /** The `delete` action. Its `finally { return resource }` hands the
      caller's resource back on every path, discarding a transport error. The
      record the getter finds is removed under its own type and id only after
      the transport returned; the record itself is left as it was. */
  function Delete(s: Store, subject: Subject, reply: Call<()>): (o: DeleteOutcome)
    requires Valid(s)
    ensures o.returned == subject
    ensures Valid(o.store)
    ensures o.sent == (if subject.wire.Succeeded? then Some(subject.wire.value) else None)
    ensures o.store.arena == s.arena && o.store.next == s.next
    ensures o.store != s ==> subject.wire.Succeeded? && reply.Succeeded? && GetState(s, subject.typ, subject.id).Some?
    ensures subject.wire.Succeeded? && reply.Succeeded? && GetState(s, subject.typ, subject.id).Some? ==>
              var rec := s.arena[GetState(s, subject.typ, subject.id).value];
              Truthy(ResourceType(rec)) ==>
                && StoredAt(o.store, rec) == None
                && forall t, k :: (t != ToKey(ResourceType(rec)) || k != ToKey(ResourceId(rec))) ==>
                                  Entry(o.store, t, k) == Entry(s, t, k)
    // a cached record without a truthy type of its own makes setState throw;
    // the `finally` swallows that and nothing is removed
    ensures subject.wire.Succeeded? && reply.Succeeded? && GetState(s, subject.typ, subject.id).Some? ==>
              var rec := s.arena[GetState(s, subject.typ, subject.id).value];
              !Truthy(ResourceType(rec)) ==> o.store == s
  {
    match subject.wire
    case Failed => DeleteOutcome(subject, None, s)
    case Succeeded(raw) =>
      match reply
      case Failed => DeleteOutcome(subject, Some(raw), s)
      case Succeeded(_) =>
        match GetState(s, subject.typ, subject.id)
        case None => DeleteOutcome(subject, Some(raw), s)
        case Some(h) =>
          var rec := s.arena[h];
          match SetState(s, Mutation.Delete, ResourceType(rec), ResourceId(rec), None)
          case Ok(s2) => DeleteOutcome(subject, Some(raw), s2)
          case Err(_) => DeleteOutcome(subject, Some(raw), s)
  }

  // ---------------------------------------------------------------------------
  // relationshipHandler
  // ---------------------------------------------------------------------------

  /** The `get` the relationship handler dispatches. */
  datatype GetCall = GetCall(typ: Value, id: Value, options: Value)

  /** The options the handler passes on: the caller's query, and the
      relationship's `related` link as the collection link. */
  function RelatedOptions(links: Value, query: Value): (o: Value)
    ensures Opt(o, "link") == Member(links, "related")
    ensures Opt(o, "query") == query
  {
    var ps := [Prop("query", query), Prop("link", Member(links, "related"))];
    var tail := ps[1..];
    assert Keys(tail[1..]) == [] && Keys(tail) == ["link"];
    assert Lookup(tail, "link") == Member(links, "related");
    assert Lookup(ps, "link") == Lookup(tail, "link");
    Obj(ps)
  }

  /** `relationshipHandler(data, links, options)` up to the dispatch. A
      to-many linkage asks for the type of its first element and the list of
      all ids; a to-one linkage for its own type and id. Reading a property of
      null or undefined (an empty list's first element, a null element, a
      missing linkage or links) throws before anything is dispatched. */
  function RelationshipCall(data: Value, links: Value, query: Value): (r: Result<GetCall>)
    ensures r.Ok? <==> && !IsNullish(links)
                       && (if data.Arr? then data.items != [] && forall i :: 0 <= i < |data.items| ==> !IsNullish(data.items[i])
                           else !IsNullish(data))
    ensures r.Ok? ==> Opt(r.value.options, "link") == Member(links, "related")
                      && Opt(r.value.options, "query") == query
    ensures r.Ok? && data.Arr? ==>
              && r.value.typ == Member(data.items[0], "type")
              && r.value.id.Arr? && |r.value.id.items| == |data.items|
              && forall i :: 0 <= i < |data.items| ==> r.value.id.items[i] == Member(data.items[i], "id")
    ensures r.Ok? && !data.Arr? ==> r.value.typ == Member(data, "type") && r.value.id == Member(data, "id")
  {
    if data.Arr? then
      if data.items == [] || exists i :: 0 <= i < |data.items| && IsNullish(data.items[i]) then Err(TypeError)
      else if IsNullish(links) then Err(TypeError)
      else
        var ids := seq(|data.items|, i requires 0 <= i < |data.items| => Member(data.items[i], "id"));
        Ok(GetCall(Member(data.items[0], "type"), Arr(ids), RelatedOptions(links, query)))
    else if IsNullish(data) || IsNullish(links) then Err(TypeError)
    else Ok(GetCall(Member(data, "type"), Member(data, "id"), RelatedOptions(links, query)))
  }

  /** `relationshipHandler`: the same `get`, with the relationship's link. */
  function RelationshipHandler(s: Store, data: Value, links: Value, query: Value, reply: Call<Response>): (r: Result<GetOutcome>)
    requires Valid(s)
    ensures r.Ok? <==> RelationshipCall(data, links, query).Ok?
    ensures r.Err? ==> r.fault == TypeError
    ensures r.Ok? ==> var c := RelationshipCall(data, links, query).value;
                      r.value == Get(s, c.typ, c.id, c.options, reply)
  {
    match RelationshipCall(data, links, query)
    case Err(f) => Err(f)
    case Ok(c) => Ok(Get(s, c.typ, c.id, c.options, reply))
  }

  // ---------------------------------------------------------------------------
  // Properties across calls
  // ---------------------------------------------------------------------------

  /** A single id that the getter and `setState` turn into the same key. */
  predicate PlainId(id: Value)
  {
    !id.Undefined? && !id.Arr?
  }

  /** A resource committed under the key asked for: its own type is truthy,
      its id is defined, and both read as the same strings as the type and id
      asked for (the number 1 asks for the resource whose id is "1"). */
  predicate Describes(res: Props, typ: Value, id: Value)
  {
    && Truthy(ResourceType(res)) && ToKey(ResourceType(res)) == ToKey(typ)
    && !ResourceId(res).Undefined? && ToKey(ResourceId(res)) == ToKey(id)
  }

  /** Only null and the string "null" read as the key "null" among single
      ids, and both ask the getter for the sole record. */
  lemma NullKeyAsksForSole(id: Value)
    requires PlainId(id) && ToKey(id) == "null"
    ensures AsksForSole(id)
  {
    match id
    case Num(n) =>
      DecimalIsNotNull(n);
    case _ =>
  }

  /** A decimal rendering starts with a sign or a digit. */
  lemma DecimalIsNotNull(n: int)
    ensures DecimalString(n) != "null"
  {
    if n < 0 {
      assert DecimalString(n)[0] == '-';
    } else {
      assert '0' <= DecimalString(n)[0] <= '9';
    }
  }

  /** The getter answers alike for a type and id and for any type and defined
      id reading as the same strings, when the first lookup misses. */
  lemma SameKeyMisses(s: Store, typ: Value, id: Value, typ': Value, id': Value)
    requires PlainId(id) && !id'.Undefined?
    requires ToKey(typ') == ToKey(typ) && ToKey(id') == ToKey(id)
    requires GetState(s, typ, id).None?
    ensures GetState(s, typ', id').None?
  {
    assert GetterId(id) == id && GetterId(id') == id';
    if AsksForSole(id') {
      assert ToKey(id') == "null";
      NullKeyAsksForSole(id);
    }
  }

  /** A complete fetch stores what it fetched; every later `get` of the same
      key, sparse or not, answers the same view without a request. The
      resource need only describe the key: the number 1 asks for the
      resource whose id is the string "1". */
  lemma FetchedThenCached(s: Store, typ: Value, id: Value, options: Value, res: Props, options': Value, reply': Call<Response>)
    requires Valid(s) && Truthy(typ) && PlainId(id)
    requires GetState(s, typ, id).None?
    requires !IncludesFields.IncludesFields(Opt(options, "query"))
    requires Describes(res, typ, id)
    ensures var o := Get(s, typ, id, options, Succeeded(Response(Single(res), None)));
            && o.request.Some? && o.answer.View?
            && o.answer.handle !in s.arena && o.store.arena[o.answer.handle] == res
            && Get(o.store, typ, id, options', reply') == GetOutcome(o.answer, None, o.store)
  {
    var o := Get(s, typ, id, options, Succeeded(Response(Single(res), None)));
    SameKeyMisses(s, typ, id, ResourceType(res), ResourceId(res));
    var step := CacheAndParse(s, res, false);
    assert step.Done? && StoredAt(step.store, res) == Some(step.value);
    assert GetterId(id) == id;
    assert o == GetOutcome(View(step.value), Some(Request(typ, id, options)), step.store);
    assert GetState(o.store, typ, id) == Some(step.value);
  }

  /** The list form: a complete list fetched through the collection link is
      cached view by view, and a later `get` of the ids of the fetched
      resources, sparse or not, answers the same views without a request. */
  lemma ListFetchedThenCached(s: Store, typ: Value, ids: seq<Value>, options: Value, rs: seq<Props>,
                              later: seq<Value>, options': Value, reply': Call<Response>)
    requires Valid(s) && Truthy(typ)
    requires !AllCached(s, typ, ids) && Truthy(Opt(options, "link"))
    requires !IncludesFields.IncludesFields(Opt(options, "query"))
    requires |later| == |rs|
    requires forall i :: 0 <= i < |rs| ==> !later[i].Undefined? && Describes(rs[i], typ, later[i])
    ensures var o := Get(s, typ, Arr(ids), options, Succeeded(Response(Batch(rs), None)));
            && o.request == Some(Request(typ, Undefined, options))
            && o.answer.Views? && |o.answer.handles| == |rs|
            && Get(o.store, typ, Arr(later), options', reply') == GetOutcome(o.answer, None, o.store)
  {
    var req := Request(typ, Undefined, options);
    var reply := Succeeded(Response(Batch(rs), None));
    ListMissFetches(s, typ, ids, options, reply);
    CacheAllCompletes(s, rs);
    CacheAllCommitsEach(s, rs);
    var step := CacheAll(s, rs, false);
    assert Fetch(s, req, reply) == GetOutcome(Views(step.value), Some(req), step.store);
    forall i | 0 <= i < |later| ensures Entry(step.store, ToKey(typ), ToKey(later[i])) == Some(step.value[i]) {
      assert StoredAt(step.store, rs[i]) == Some(step.value[i]);
    }
    CachedListAnswers(step.store, typ, later, step.value, options', reply');
  }

  /** A list whose every id is stored under its own key is answered from the
      cache, view by view, whatever the options. */
  lemma CachedListAnswers(s: Store, typ: Value, ids: seq<Value>, hs: seq<Handle>, options: Value, reply: Call<Response>)
    requires Valid(s) && Truthy(typ) && |hs| == |ids|
    requires forall i :: 0 <= i < |ids| ==> !ids[i].Undefined? && Entry(s, ToKey(typ), ToKey(ids[i])) == Some(hs[i])
    ensures Get(s, typ, Arr(ids), options, reply) == GetOutcome(Views(hs), None, s)
  {
    forall i | 0 <= i < |ids| ensures GetState(s, typ, ids[i]) == Some(hs[i]) {
      assert GetterId(ids[i]) == ids[i];
    }
    assert AllCached(s, typ, ids);
    assert Get(s, typ, Arr(ids), options, reply).answer.handles == hs;
  }

  /** A complete list whose resources all have a truthy type is cached
      without a throw. */
  lemma {:induction false} CacheAllCompletes(s: Store, rs: seq<Props>)
    requires Valid(s)
    requires forall i :: 0 <= i < |rs| ==> Truthy(ResourceType(rs[i]))
    ensures CacheAll(s, rs, false).Done?
    decreases |rs|
  {
    if rs != [] {
      var first := CacheAndParse(s, rs[0], false);
      assert forall i :: 0 <= i < |rs[1..]| ==> rs[1..][i] == rs[i + 1];
      CacheAllCompletes(first.store, rs[1..]);
    }
  }

  /** A sparse fetch is answered with a fresh record that no bucket holds, so
      the getter still misses afterwards. */
  lemma SparseFetchIsNotCached(s: Store, typ: Value, id: Value, options: Value, res: Props)
    requires Valid(s) && Truthy(typ) && !id.Arr?
    requires GetState(s, typ, id).None?
    requires IncludesFields.IncludesFields(Opt(options, "query"))
    ensures var o := Get(s, typ, id, options, Succeeded(Response(Single(res), None)));
            && o.request.Some? && o.answer.View?
            && o.answer.handle !in s.arena
            && o.store.buckets == s.buckets
            && o.store.arena == s.arena[o.answer.handle := res]
            && GetState(o.store, typ, id).None?
  {
  }

  /** Sparse, then complete, then sparse again: the first answer is a record
      of its own, the second is cached, and the third is the cached one,
      answered without a request. */
  lemma {:induction false} SparseThenFull(s: Store, typ: Value, id: Value, sparse: Value, full: Value, res: Props, res': Props, reply: Call<Response>)
    requires Valid(s) && Truthy(typ) && PlainId(id)
    requires GetState(s, typ, id).None?
    requires IncludesFields.IncludesFields(Opt(sparse, "query"))
    requires !IncludesFields.IncludesFields(Opt(full, "query"))
    requires Describes(res', typ, id)
    ensures var o1 := Get(s, typ, id, sparse, Succeeded(Response(Single(res), None)));
            var o2 := Get(o1.store, typ, id, full, Succeeded(Response(Single(res'), None)));
            var o3 := Get(o2.store, typ, id, sparse, reply);
            && o1.answer.View? && o2.answer.View? && o1.answer != o2.answer
            && o2.request.Some? && o3.request.None? && o3.answer == o2.answer
  {
    SparseFetchIsNotCached(s, typ, id, sparse, res);
    var o1 := Get(s, typ, id, sparse, Succeeded(Response(Single(res), None)));
    assert Valid(o1.store) && GetState(o1.store, typ, id).None?;
    FetchedThenCached(o1.store, typ, id, full, res', sparse, reply);
    var o2 := Get(o1.store, typ, id, full, Succeeded(Response(Single(res'), None)));
    assert o1.answer.handle in o1.store.arena;
    assert o2.answer.handle !in o1.store.arena;
    assert Get(o2.store, typ, id, sparse, reply) == GetOutcome(o2.answer, None, o2.store);
  }

  /** The included resources of a response are cached whether or not the
      primary data was sparse: when the fetch resolves to something other
      than null, each of them is found under its own type and id. */
  lemma {:induction false} IncludedAlwaysCached(s: Store, req: Request, data: Payload, incs: seq<Props>)
    requires Valid(s)
    ensures var o := Fetch(s, req, Succeeded(Response(data, Some(incs))));
            o.answer != NullAnswer ==> forall i :: 0 <= i < |incs| ==> StoredAt(o.store, incs[i]).Some?
  {
    var sparse := IncludesFields.IncludesFields(Opt(req.options, "query"));
    var s1 :=
      match data
      case Single(res) => CacheAndParse(s, res, sparse).store
      case Batch(rs) => CacheAll(s, rs, sparse).store;
    CacheAllStoresEach(s1, incs);
  }

  /** A list whose first resource is committed and whose second has no type
      resolves to null, yet the first resource stays cached: a failed `get`
      does not roll back what it had already committed. */
  lemma FailedBatchKeepsEarlierCommits()
    ensures var first := [Prop("type", Str("dog")), Prop("id", Str("1"))];
            var second := [Prop("type", Str("")), Prop("id", Str("2"))];
            var o := Get(Empty, Str("dog"), Arr([Str("1"), Str("2")]), Obj([Prop("link", Str("/dogs"))]),
                         Succeeded(Response(Batch([first, second]), None)));
            && o.request.Some? && o.answer == NullAnswer
            && GetState(o.store, Str("dog"), Str("1")).Some?
  {
    var first := [Prop("type", Str("dog")), Prop("id", Str("1"))];
    var second := [Prop("type", Str("")), Prop("id", Str("2"))];
    var options := Obj([Prop("link", Str("/dogs"))]);
    var ids := [Str("1"), Str("2")];
    var reply := Succeeded(Response(Batch([first, second]), None));
    LinkOnly();
    assert !AllCached(Empty, Str("dog"), ids) by {
      assert GetState(Empty, Str("dog"), ids[0]).None?;
    }
    ListMissFetches(Empty, Str("dog"), ids, options, reply);
    CommitThenThrow();
    BatchThrowKeepsStore(Empty, Request(Str("dog"), Undefined, options), [first, second], None);
  }

  /** The options of the example above carry a link and no query. */
  lemma LinkOnly()
    ensures var options := Obj([Prop("link", Str("/dogs"))]);
            Opt(options, "link") == Str("/dogs") && Opt(options, "query") == Undefined
            && !IncludesFields.IncludesFields(Opt(options, "query"))
  {
  }

  /** A list that is not fully cached, asked for with a link, is fetched as a
      collection. */
  lemma ListMissFetches(s: Store, typ: Value, ids: seq<Value>, options: Value, reply: Call<Response>)
    requires Valid(s) && Truthy(typ) && !AllCached(s, typ, ids) && Truthy(Opt(options, "link"))
    ensures Get(s, typ, Arr(ids), options, reply) == Fetch(s, Request(typ, Undefined, options), reply)
  {
  }

  /** A complete list that throws part-way resolves the fetch to null with
      the store the list left behind. */
  lemma BatchThrowKeepsStore(s: Store, req: Request, rs: seq<Props>, included: Option<seq<Props>>)
    requires Valid(s)
    requires !IncludesFields.IncludesFields(Opt(req.options, "query"))
    requires CacheAll(s, rs, false).Threw?
    ensures Fetch(s, req, Succeeded(Response(Batch(rs), included))) ==
            GetOutcome(NullAnswer, Some(req), CacheAll(s, rs, false).store)
  {
  }

  /** The list of the example above: the first resource is committed, then
      the second throws. */
  lemma CommitThenThrow()
    ensures var first := [Prop("type", Str("dog")), Prop("id", Str("1"))];
            var second := [Prop("type", Str("")), Prop("id", Str("2"))];
            var r := CacheAll(Empty, [first, second], false);
            r.Threw? && GetState(r.store, Str("dog"), Str("1")).Some?
  {
    var first := [Prop("type", Str("dog")), Prop("id", Str("1"))];
    var second := [Prop("type", Str("")), Prop("id", Str("2"))];
    assert Keys(first[1..][1..]) == [] && Keys(first[1..]) == ["id"];
    assert Keys(second[1..]) == ["id"];
    assert ResourceType(first) == Str("dog") && ResourceId(first) == Str("1");
    assert ResourceType(second) == Str("");
    var a := CacheAndParse(Empty, first, false);
    assert a.Done? && StoredAt(a.store, first).Some?;
    assert [first, second][1..] == [second];
    var b := CacheAndParse(a.store, second, false);
    assert b.Threw?;
    assert CacheAll(a.store, [second], false) == Threw(b.store);
    assert KeysKept(a.store, b.store);
  }

  /** `update` keeps the identity of the record it updates: the getter still
      finds the same handle, now holding the server's answer over the old
      fields, whether or not the re-commit succeeds. */
  lemma UpdatePreservesIdentity(s: Store, subject: Subject, partial: Value, reply: Call<Props>)
    requires Valid(s)
    requires Entry(s, ToKey(subject.typ), ToKey(GetterId(subject.id))).Some?
    requires subject.wire.Succeeded? && reply.Succeeded?
    ensures var h := Entry(s, ToKey(subject.typ), ToKey(GetterId(subject.id))).value;
            var o := Update(s, subject, partial, reply);
            && GetState(o.store, subject.typ, subject.id) == Some(h)
            && forall k :: Lookup(o.store.arena[h], k) ==
                           (if Has(reply.value, k) then Lookup(reply.value, k) else Lookup(s.arena[h], k))
  {
  }

  /** After a successful `create`, a `get` of the key the created resource
      describes answers the new record without a request, sparse or not. */
  lemma CreateThenGet(s: Store, wire: Call<Props>, reply: Call<Props>, typ: Value, id: Value, options: Value, reply': Call<Response>)
    requires Valid(s) && wire.Succeeded? && reply.Succeeded?
    requires Truthy(typ) && PlainId(id) && Describes(reply.value, typ, id)
    ensures var o := Create(s, wire, reply);
            && o.answer.View? && o.answer.handle !in s.arena
            && Get(o.store, typ, id, options, reply') == GetOutcome(o.answer, None, o.store)
  {
    var o := Create(s, wire, reply);
    assert GetterId(id) == id;
    assert StoredAt(o.store, reply.value) == Some(o.answer.handle);
  }

  /** After a completed `delete` of a record stored under the key it is asked
      for by, the getter no longer finds it. */
  lemma DeleteThenGetMisses(s: Store, subject: Subject, reply: Call<()>)
    requires Valid(s) && subject.wire.Succeeded? && reply.Succeeded?
    requires GetState(s, subject.typ, subject.id).Some?
    requires Truthy(subject.typ) && PlainId(subject.id) && !AsksForSole(subject.id)
    requires Describes(s.arena[GetState(s, subject.typ, subject.id).value], subject.typ, subject.id)
    ensures GetState(Delete(s, subject, reply).store, subject.typ, subject.id).None?
  {
  }

  /** A to-many relationship whose every linked record is cached resolves to
      those records, in linkage order, without a request. */
  lemma {:induction false} CachedToManyNeedsNoFetch(s: Store, data: Value, links: Value, query: Value, reply: Call<Response>)
    requires Valid(s) && data.Arr? && data.items != [] && !IsNullish(links)
    requires forall i :: 0 <= i < |data.items| ==> !IsNullish(data.items[i])
    requires Truthy(Member(data.items[0], "type"))
    requires forall i :: 0 <= i < |data.items| ==>
               GetState(s, Member(data.items[0], "type"), Member(data.items[i], "id")).Some?
    ensures var r := RelationshipHandler(s, data, links, query, reply);
            && r.Ok? && r.value.request.None? && r.value.store == s && r.value.answer.Views?
            && |r.value.answer.handles| == |data.items|
            && forall i :: 0 <= i < |data.items| ==>
                 Some(r.value.answer.handles[i]) == GetState(s, Member(data.items[0], "type"), Member(data.items[i], "id"))
  {
    var c := RelationshipCall(data, links, query).value;
    assert AllCached(s, c.typ, c.id.items);
  }

  /** A to-one relationship that is not cached is fetched through the
      relationship's `related` link, with the caller's query. */
  lemma UncachedToOneFollowsRelatedLink(s: Store, data: Value, links: Value, query: Value, reply: Call<Response>)
    requires Valid(s) && !data.Arr? && !IsNullish(data) && !IsNullish(links)
    requires Truthy(Member(data, "type")) && !Member(data, "id").Arr?
    requires GetState(s, Member(data, "type"), Member(data, "id")).None?
    ensures var r := RelationshipHandler(s, data, links, query, reply);
            && r.Ok? && r.value.request.Some?
            && r.value.request.value.typ == Member(data, "type")
            && r.value.request.value.id == Member(data, "id")
            && Opt(r.value.request.value.options, "link") == Member(links, "related")
            && Opt(r.value.request.value.options, "query") == query
  {
    var c := RelationshipCall(data, links, query).value;
    assert c == GetCall(Member(data, "type"), Member(data, "id"), RelatedOptions(links, query));
    var o := Get(s, c.typ, c.id, c.options, reply);
    assert o.request == Some(Request(c.typ, c.id, c.options));
  }
}

=== FILE: includes_fields.dfy ===
/** The sparse-fieldset test of packages/vuex-store/src/store/includes-fields.ts:
    a query marks a request sparse when one of its keys starts with "fields". */
module IncludesFields {
  import opened JsValue

  const FieldsPrefix := "fields"

  predicate StartsWith(s: string, prefix: string)
  {
    |prefix| <= |s| && s[..|prefix|] == prefix
  }

  predicate IsFieldsKey(k: string)
  {
    StartsWith(k, FieldsPrefix)
  }

  /** `keys.find(key => key.startsWith("fields"))`: the first such key. */
  function FindFieldsKey(keys: seq<string>): (r: Option<string>)
    ensures r.None? <==> forall i :: 0 <= i < |keys| ==> !IsFieldsKey(keys[i])
    ensures r.Some? ==> exists i :: 0 <= i < |keys| && keys[i] == r.value
                                    && IsFieldsKey(r.value)
                                    && forall j :: 0 <= j < i ==> !IsFieldsKey(keys[j])
  {
    if keys == [] then None
    else if IsFieldsKey(keys[0]) then Some(keys[0])
    else
      var r := FindFieldsKey(keys[1..]);
      assert r.Some? ==> exists i :: 1 <= i < |keys| && keys[i] == r.value
                                    && IsFieldsKey(r.value)
                                    && forall j :: 0 <= j < i ==> !IsFieldsKey(keys[j]) by {
        if r.Some? {
          var i :| 0 <= i < |keys[1..]| && keys[1..][i] == r.value
                   && IsFieldsKey(r.value)
                   && forall j :: 0 <= j < i ==> !IsFieldsKey(keys[1..][j]);
          assert keys[i + 1] == r.value;
          forall j | 0 <= j < i + 1 ensures !IsFieldsKey(keys[j]) {
            if j > 0 { assert keys[j] == keys[1..][j - 1]; }
          }
        }
      }
      r
  }

  /** `includesFields(query)`: false for a missing (falsy) query; otherwise
      whether a key of the query starts with "fields". The found key is
      itself tested for truthiness, which a key with that prefix passes. */
  function IncludesFields(query: Value): (r: bool)
    ensures r <==> Truthy(query) && exists i :: 0 <= i < |Keys(Entries(query))|
                                                && IsFieldsKey(Keys(Entries(query))[i])
  {
    if Truthy(query) then
      match FindFieldsKey(Keys(Entries(query)))
      case Some(k) => Truthy(Str(k))
      case None => false
    else false
  }

  /** Only the keys of the query are read, never its values. */
  lemma IncludesFieldsReadsOnlyKeys(q1: Value, q2: Value)
    requires q1.Obj? && q2.Obj? && Keys(q1.props) == Keys(q2.props)
    ensures IncludesFields(q1) == IncludesFields(q2)
  {
  }

  lemma {:induction false} IndexKeysAreDigits(items: seq<Value>, start: nat)
    ensures forall i :: 0 <= i < |items| ==> !IsFieldsKey(Keys(IndexedItems(items, start))[i])
  {
    if items != [] {
      IndexKeysAreDigits(items[1..], start + 1);
      var ks := Keys(IndexedItems(items, start));
      assert ks == [DecimalString(start)] + Keys(IndexedItems(items[1..], start + 1));
      forall i | 0 <= i < |items| ensures !IsFieldsKey(ks[i]) {
        if i == 0 {
          assert ks[0][0] == Digits(start)[0];
        } else {
          assert ks[i] == Keys(IndexedItems(items[1..], start + 1))[i - 1];
        }
      }
    }
  }

  lemma {:induction false} CharKeysAreDigits(s: string, start: nat)
    ensures forall i :: 0 <= i < |s| ==> !IsFieldsKey(Keys(IndexedChars(s, start))[i])
  {
    if s != [] {
      CharKeysAreDigits(s[1..], start + 1);
      var ks := Keys(IndexedChars(s, start));
      assert ks == [DecimalString(start)] + Keys(IndexedChars(s[1..], start + 1));
      forall i | 0 <= i < |s| ensures !IsFieldsKey(ks[i]) {
        if i == 0 {
          assert ks[0][0] == Digits(start)[0];
        } else {
          assert ks[i] == Keys(IndexedChars(s[1..], start + 1))[i - 1];
        }
      }
    }
  }

  /** Only a plain object can make a request sparse: the keys of an array or
      a string are its indices, and other primitives have no keys. */
  lemma OnlyObjectsAreSparse(query: Value)
    requires !query.Obj?
    ensures !IncludesFields(query)
  {
    match query {
      case Arr(items) =>
        IndexKeysAreDigits(items, 0);
        assert |Keys(Entries(query))| == |items|;
      case Str(s) =>
        CharKeysAreDigits(s, 0);
        assert |Keys(Entries(query))| == |s|;
      case _ =>
    }
  }

  /** A key that differs from "fields" at position `j` does not start with it. */
  lemma NotFieldsKey(k: string, j: nat)
    requires j < |FieldsPrefix| && j < |k| && k[j] != FieldsPrefix[j]
    ensures !IsFieldsKey(k)
  {
    if |FieldsPrefix| <= |k| {
      assert k[..|FieldsPrefix|][j] == k[j];
    }
  }

  /** The cases of includes-fields.spec.ts, and the empty query object. */
  lemma IncludesFieldsExamples()
    ensures !IncludesFields(Undefined)
    ensures !IncludesFields(Obj([]))
    ensures !IncludesFields(Obj([Prop("include", Str("kitty")), Prop("filter", Str("dogs")),
                                 Prop("page[offset]", Str(""))]))
    ensures IncludesFields(Obj([Prop("include", Str("kitty")), Prop("filter", Str("dogs")),
                                Prop("page[offset]", Str("")),
                                Prop("fields[kitty]", Str("paw,meow,lives"))]))
  {
    var q := Obj([Prop("include", Str("kitty")), Prop("filter", Str("dogs")),
                  Prop("page[offset]", Str(""))]);
    var ks := Keys(q.props);
    assert ks == ["include", "filter", "page[offset]"];
    NotFieldsKey(ks[0], 0);
    NotFieldsKey(ks[1], 2);
    NotFieldsKey(ks[2], 0);
    var q' := Obj(q.props + [Prop("fields[kitty]", Str("paw,meow,lives"))]);
    var ks' := Keys(q'.props);
    assert ks' == ["include", "filter", "page[offset]", "fields[kitty]"];
    assert IsFieldsKey(ks'[3]);
  }
}

=== FILE: parser.dfy ===
/** The JSON:API parser stand-in of
    packages/backbone-vuex-adapter/test-utils/test-parser-mock.ts: `camelize`
    renames a key, `_parseWithNames` renames every key of an object at every
    nesting level, and `parse` flattens a raw resource (attributes hoisted to
    the top, `id`, `_type`, `_self`, `relationships`) before renaming. */
module JsonApiParser {
  import opened JsValue

  // ---------------------------------------------------------------------------
  // camelize
  // ---------------------------------------------------------------------------

  /** The character class `[a-z0-9]` of the pattern `-([a-z0-9])`. */
  predicate IsLowerOrDigit(c: char)
  {
    'a' <= c <= 'z' || '0' <= c <= '9'
  }

  predicate IsUpperOrDigit(c: char)
  {
    'A' <= c <= 'Z' || '0' <= c <= '9'
  }

  /** `toUpperCase` on a character of `[a-z0-9]`; digits have no case. */
  function Upper(c: char): (u: char)
    requires IsLowerOrDigit(c)
    ensures IsUpperOrDigit(u)
  {
    if 'a' <= c <= 'z' then (c as int - 32) as char else c
  }

  /** The string starts with a match of `-([a-z0-9])`. */
  predicate StartsWithMatch(s: string)
  {
    |s| >= 2 && s[0] == '-' && IsLowerOrDigit(s[1])
  }

  /** `str.replace(/-([a-z0-9])/g, m => m[1].toUpperCase())`: scanning left
      to right, each match is replaced by its upper-cased second character and
      the scan resumes after it; everything else is copied. */
  function Camelize(s: string): (r: string)
    ensures |r| <= |s|
    ensures s != [] ==> r != [] && r[0] == (if StartsWithMatch(s) then Upper(s[1]) else s[0])
  {
    if s == [] then []
    else if StartsWithMatch(s) then [Upper(s[1])] + Camelize(s[2..])
    else [s[0]] + Camelize(s[1..])
  }

  /** Some hyphen is followed by a character of `[a-z0-9]`. */
  predicate HasMatch(s: string)
  {
    exists i :: 0 <= i < |s| - 1 && s[i] == '-' && IsLowerOrDigit(s[i + 1])
  }

  /** No hyphen is followed by a lower-case letter. */
  predicate CamelKey(s: string)
  {
    forall i :: 0 <= i < |s| - 1 && s[i] == '-' ==> !('a' <= s[i + 1] <= 'z')
  }

  lemma HasMatchTail(s: string)
    requires |s| >= 1 && !StartsWithMatch(s)
    ensures HasMatch(s) <==> HasMatch(s[1..])
  {
    if HasMatch(s) {
      var i :| 0 <= i < |s| - 1 && s[i] == '-' && IsLowerOrDigit(s[i + 1]);
      assert i > 0;
      assert s[1..][i - 1] == s[i] && s[1..][i] == s[i + 1];
    }
    if HasMatch(s[1..]) {
      var i :| 0 <= i < |s[1..]| - 1 && s[1..][i] == '-' && IsLowerOrDigit(s[1..][i + 1]);
      assert s[i + 1] == '-' && IsLowerOrDigit(s[i + 2]);
    }
  }

  /** A string with a match gets shorter. */
  lemma {:induction false} CamelizeShrinks(s: string)
    requires HasMatch(s)
    ensures |Camelize(s)| < |s|
    decreases |s|
  {
    if !StartsWithMatch(s) {
      HasMatchTail(s);
      CamelizeShrinks(s[1..]);
    }
  }

  /** `camelize` returns its argument unchanged exactly when the argument has
      no hyphen followed by `[a-z0-9]`. */
  lemma {:induction false} CamelizeIdentity(s: string)
    ensures Camelize(s) == s <==> !HasMatch(s)
    decreases |s|
  {
    if s == [] {
    } else if StartsWithMatch(s) {
      assert s[0] == '-' && IsLowerOrDigit(s[0 + 1]);
      CamelizeShrinks(s);
    } else {
      HasMatchTail(s);
      CamelizeIdentity(s[1..]);
      if HasMatch(s) {
        CamelizeShrinks(s);
      }
    }
  }

  /** In a renamed key no hyphen is followed by a lower-case letter: a hyphen
      survives only when the character after it was not in `[a-z0-9]`, or was
      itself a hyphen starting a match, which becomes upper-case or a digit. */
  lemma {:induction false} CamelizeIsCamel(s: string)
    ensures CamelKey(Camelize(s))
    decreases |s|
  {
    if s != [] {
      var r := Camelize(s);
      var t := if StartsWithMatch(s) then s[2..] else s[1..];
      CamelizeIsCamel(t);
      assert r == [r[0]] + Camelize(t);
      forall i | 0 <= i < |r| - 1 && r[i] == '-'
        ensures !('a' <= r[i + 1] <= 'z')
      {
        if i == 0 {
          assert !StartsWithMatch(s) && s[0] == '-';
          assert Camelize(t)[0] == r[1];
          assert t == s[1..];
          if StartsWithMatch(t) {
            assert IsUpperOrDigit(r[1]);
          } else {
            assert r[1] == s[1];
          }
        } else {
          assert r[i] == Camelize(t)[i - 1] && r[i + 1] == Camelize(t)[i];
        }
      }
    }
  }

  /** A renamed key without upper-case letters or digits was not renamed:
      every match leaves an upper-case letter or a digit behind. */
  lemma {:induction false} CamelizePreimage(k: string)
    requires forall i :: 0 <= i < |Camelize(k)| ==> !IsUpperOrDigit(Camelize(k)[i])
    ensures Camelize(k) == k
    decreases |k|
  {
    if k != [] {
      var r := Camelize(k);
      assert !IsUpperOrDigit(r[0]);
      assert !StartsWithMatch(k);
      assert r == [k[0]] + Camelize(k[1..]);
      forall i | 0 <= i < |Camelize(k[1..])|
        ensures !IsUpperOrDigit(Camelize(k[1..])[i])
      {
        assert Camelize(k[1..])[i] == r[i + 1];
      }
      CamelizePreimage(k[1..]);
    }
  }

  /** `camelize` is not idempotent: removing one hyphen of "--1" exposes a
      new match. */
  lemma CamelizeNotIdempotent()
    ensures Camelize("a--1") == "a-1"
    ensures Camelize("a-1") == "a1"
  {
    assert Camelize("1") == "1";
    assert Camelize("-1") == "1";
    assert Camelize("--1") == "-1";
  }

  // ---------------------------------------------------------------------------
  // _parseWithNames
  // ---------------------------------------------------------------------------

  /** The renamed form of a value found under a key: an array has each of its
      object elements renamed (an array element becomes a plain object indexed
      by position), an object is renamed, anything else is kept. */
  function ParseValue(v: Value): (r: Value)
    ensures !IsObject(v) ==> r == v
    ensures v.Arr? ==> r.Arr? && |r.items| == |v.items|
    ensures v.Arr? ==> forall i :: 0 <= i < |v.items| && !IsObject(v.items[i]) ==> r.items[i] == v.items[i]
    ensures v.Arr? ==> forall i :: 0 <= i < |v.items| && IsObject(v.items[i]) ==>
              r.items[i].Obj? && forall k :: Has(r.items[i].props, k) <==> k in RenamedKeys(Entries(v.items[i]))
    ensures v.Obj? ==> r.Obj? && forall k :: Has(r.props, k) <==> k in RenamedKeys(v.props)
    ensures v.Obj? ==>
              forall k :: Lookup(r.props, k) == (match RenamedValue(v.props, k) case Some(w) => w case None => Undefined)
    decreases Size(v), 3
  {
    match v
    case Arr(items) => Arr(ParseItems(items))
    case Obj(props) => Obj(ParseWithNames(props))
    case _ => v
  }

  /** `value.map(item => _.isObject(item) ? this._parseWithNames(item) : item)` */
  function ParseItems(items: seq<Value>): (r: seq<Value>)
    ensures |r| == |items|
    ensures forall i :: 0 <= i < |items| && !IsObject(items[i]) ==> r[i] == items[i]
    ensures forall i :: 0 <= i < |items| && IsObject(items[i]) ==>
              r[i].Obj? && forall k :: Has(r[i].props, k) <==> k in RenamedKeys(Entries(items[i]))
    decreases SizeSeq(items), 1
  {
    if items == [] then []
    else
      var head := if IsObject(items[0]) then Obj(ParseWithNames(Entries(items[0]))) else items[0];
      var rest := ParseItems(items[1..]);
      assert forall i :: 1 <= i < |items| ==> items[i] == items[1..][i - 1];
      [head] + rest
  }

  /** `_parseWithNames(obj)`: a fresh object built from `{}`. */
  function ParseWithNames(ps: Props): (r: Props)
    ensures forall k :: Has(r, k) <==> k in RenamedKeys(ps)
    ensures forall k :: Lookup(r, k) == (match RenamedValue(ps, k) case Some(v) => v case None => Undefined)
    decreases SizeProps(ps), 2
  {
    Fold(ps, [])
  }

  /** The renamed keys, in property order. */
  function RenamedKeys(ps: Props): (ks: seq<string>)
    ensures |ks| == |ps|
    ensures forall i :: 0 <= i < |ps| ==> ks[i] == Camelize(ps[i].key)
  {
    if ps == [] then [] else [Camelize(ps[0].key)] + RenamedKeys(ps[1..])
  }

  /** The value `k` ends up with: that of the last property whose key is
      renamed to `k`, renamed itself, or none. */
  function RenamedValue(ps: Props, k: string): Option<Value>
    decreases SizeProps(ps), 0
  {
    if ps == [] then None
    else
      var later := RenamedValue(ps[1..], k);
      if later.Some? then later
      else if Camelize(ps[0].key) == k then Some(ParseValue(ps[0].val))
      else None
  }

  /** The `reduce` of `_parseWithNames`, assigning each renamed key onto the
      accumulator in property order. */
  function Fold(ps: Props, acc: Props): (r: Props)
    ensures forall k :: Has(r, k) <==> Has(acc, k) || k in RenamedKeys(ps)
    ensures forall k :: Lookup(r, k) == (match RenamedValue(ps, k) case Some(v) => v case None => Lookup(acc, k))
    decreases SizeProps(ps), 1
  {
    if ps == [] then acc
    else Fold(ps[1..], Put(acc, Camelize(ps[0].key), ParseValue(ps[0].val)))
  }

  /** The keys of `_parseWithNames(obj)` are the renamed keys of `obj`. */
  lemma ParseWithNamesKeys(ps: Props, k: string)
    ensures Has(ParseWithNames(ps), k) <==> exists i :: 0 <= i < |ps| && Camelize(ps[i].key) == k
  {
    var ks := RenamedKeys(ps);
    if k in ks {
      var i :| 0 <= i < |ks| && ks[i] == k;
      assert Camelize(ps[i].key) == k;
    }
  }

  lemma NoHyphenNoMatch(t: string)
    requires forall i :: 0 <= i < |t| ==> t[i] != '-'
    ensures !HasMatch(t)
  {
  }

  /** The names `parse` sets itself are plain. */
  lemma MetaKeysArePlain()
    ensures PlainKey("id") && PlainKey("_type") && PlainKey("_self") && PlainKey("relationships")
  {
    NoHyphenNoMatch("id");
    NoHyphenNoMatch("_type");
    NoHyphenNoMatch("_self");
    NoHyphenNoMatch("relationships");
  }

  /** A key `camelize` leaves alone and that no other key is renamed to: it
      has no upper-case letter or digit, and no hyphen followed by `[a-z0-9]`. */
  predicate PlainKey(t: string)
  {
    !HasMatch(t) && forall i :: 0 <= i < |t| ==> !IsUpperOrDigit(t[i])
  }

  lemma PlainKeyPreimage(k: string, t: string)
    requires PlainKey(t)
    ensures Camelize(k) == t <==> k == t
  {
    CamelizeIdentity(t);
    if Camelize(k) == t {
      CamelizePreimage(k);
    }
  }

  /** Renaming reads a plain key the way the input does. */
  lemma {:induction false} RenamedPlainKey(ps: Props, t: string)
    requires PlainKey(t)
    ensures RenamedValue(ps, t) == (if Has(ps, t) then Some(ParseValue(Lookup(ps, t))) else None)
  {
    if ps != [] {
      RenamedPlainKey(ps[1..], t);
      PlainKeyPreimage(ps[0].key, t);
      assert Keys(ps) == [ps[0].key] + Keys(ps[1..]);
    }
  }

  /** Reading a plain key (such as "id", "_type", "_self" or
      "relationships") after `_parseWithNames`: the input's value under the
      same key, renamed. */
  lemma ParseWithNamesPlainKey(ps: Props, t: string)
    requires PlainKey(t)
    ensures Has(ParseWithNames(ps), t) <==> Has(ps, t)
    ensures Lookup(ParseWithNames(ps), t) == (if Has(ps, t) then ParseValue(Lookup(ps, t)) else Undefined)
  {
    RenamedPlainKey(ps, t);
    ParseWithNamesKeys(ps, t);
    KeysIndex(ps, t);
    if exists i :: 0 <= i < |ps| && Camelize(ps[i].key) == t {
      var i :| 0 <= i < |ps| && Camelize(ps[i].key) == t;
      PlainKeyPreimage(ps[i].key, t);
    }
    if Has(ps, t) {
      var i :| 0 <= i < |ps| && ps[i].key == t;
      PlainKeyPreimage(ps[i].key, t);
    }
  }

  // ---------------------------------------------------------------------------
  // Renaming reaches every level
  // ---------------------------------------------------------------------------

  /** Every key at every level of a value is a `CamelKey`. */
  predicate DeepCamel(v: Value)
    decreases Size(v), 1
  {
    match v
    case Arr(items) => DeepCamelItems(items)
    case Obj(props) => DeepCamelProps(props)
    case _ => true
  }

  predicate DeepCamelItems(items: seq<Value>)
    decreases SizeSeq(items), 0
  {
    items == [] || (DeepCamel(items[0]) && DeepCamelItems(items[1..]))
  }

  predicate DeepCamelProps(ps: Props)
    decreases SizeProps(ps), 0
  {
    ps == [] || (CamelKey(ps[0].key) && DeepCamel(ps[0].val) && DeepCamelProps(ps[1..]))
  }

  lemma {:induction false} PutDeepCamel(ps: Props, k: string, v: Value)
    requires DeepCamelProps(ps) && CamelKey(k) && DeepCamel(v)
    ensures DeepCamelProps(Put(ps, k, v))
  {
    if ps != [] {
      if !(ps[0].key == k && !Has(ps[1..], k)) {
        PutDeepCamel(ps[1..], k, v);
        var r := Put(ps, k, v);
        assert r[0] == ps[0] && r[1..] == Put(ps[1..], k, v);
      } else {
        assert Put(ps, k, v)[1..] == ps[1..];
      }
    }
  }

  /** `_parseWithNames` renames keys at every nesting level, inside objects
      and inside the objects held by arrays. */
  lemma {:induction false} ParseValueDeepCamel(v: Value)
    ensures DeepCamel(ParseValue(v))
    decreases Size(v), 2
  {
    match v
    case Arr(items) => ParseItemsDeepCamel(items);
    case Obj(props) => FoldDeepCamel(props, []);
    case _ =>
  }

  lemma {:induction false} ParseItemsDeepCamel(items: seq<Value>)
    ensures DeepCamelItems(ParseItems(items))
    decreases SizeSeq(items), 1
  {
    if items != [] {
      var r := ParseItems(items);
      if IsObject(items[0]) {
        FoldDeepCamel(Entries(items[0]), []);
      } else {
        assert DeepCamel(items[0]);
      }
      ParseItemsDeepCamel(items[1..]);
      assert r[1..] == ParseItems(items[1..]);
    }
  }

  lemma {:induction false} FoldDeepCamel(ps: Props, acc: Props)
    requires DeepCamelProps(acc)
    ensures DeepCamelProps(Fold(ps, acc))
    decreases SizeProps(ps), 0
  {
    if ps != [] {
      CamelizeIsCamel(ps[0].key);
      ParseValueDeepCamel(ps[0].val);
      PutDeepCamel(acc, Camelize(ps[0].key), ParseValue(ps[0].val));
      FoldDeepCamel(ps[1..], Put(acc, Camelize(ps[0].key), ParseValue(ps[0].val)));
    }
  }

  // ---------------------------------------------------------------------------
  // parse
  // ---------------------------------------------------------------------------

  /** The `self` link of a resource, when `links` and `links.self` are both
      truthy. */
  function SelfLink(res: Props): Option<Value>
  {
    var links := Lookup(res, "links");
    if Truthy(links) && Truthy(Member(links, "self")) then Some(Member(links, "self")) else None
  }

  /** `_.extend({}, resource.attributes)` when the attributes are truthy:
      their own properties, and nothing otherwise. */
  function Hoist(res: Props): (r: Props)
    ensures forall k :: Has(r, k) <==> Truthy(Lookup(res, "attributes")) && Has(Entries(Lookup(res, "attributes")), k)
    ensures forall k :: Lookup(r, k) ==
              (if Truthy(Lookup(res, "attributes")) then Member(Lookup(res, "attributes"), k) else Undefined)
  {
    var attrs := Lookup(res, "attributes");
    if Truthy(attrs) then Assign([], Entries(attrs)) else []
  }

  /** The hoisted attributes with `id` and `_type` set from the resource. */
  function Stamp(res: Props): (r: Props)
    ensures Lookup(r, "id") == Lookup(res, "id")
    ensures Lookup(r, "_type") == Lookup(res, "type")
    ensures forall k :: Has(r, k) <==> k == "id" || k == "_type" || Has(Hoist(res), k)
    ensures forall k :: k != "id" && k != "_type" ==> Lookup(r, k) == Lookup(Hoist(res), k)
  {
    var withId := Put(Hoist(res), "id", Lookup(res, "id"));
    assert Lookup(withId, "id") == Lookup(res, "id");
    Put(withId, "_type", Lookup(res, "type"))
  }

  /** The stamped attributes with `_self` set from a truthy self link. */
  function WithSelf(res: Props): (r: Props)
    ensures SelfLink(res).Some? ==> Lookup(r, "_self") == SelfLink(res).value
    ensures forall k :: Has(r, k) <==> (k == "_self" && SelfLink(res).Some?) || Has(Stamp(res), k)
    ensures forall k :: k != "_self" ==> Lookup(r, k) == Lookup(Stamp(res), k)
  {
    if SelfLink(res).Some? then Put(Stamp(res), "_self", SelfLink(res).value) else Stamp(res)
  }

  /** The flat object `parse` builds before renaming: the stamped
      attributes, then `_self` and `relationships`. */
  function Flatten(res: Props): (r: Props)
    ensures Lookup(r, "id") == Lookup(res, "id")
    ensures Lookup(r, "_type") == Lookup(res, "type")
    ensures SelfLink(res).Some? ==> Lookup(r, "_self") == SelfLink(res).value
    ensures Truthy(Lookup(res, "relationships")) ==> Lookup(r, "relationships") == Lookup(res, "relationships")
    ensures forall k :: Has(r, k) <==>
              || (k == "_self" && SelfLink(res).Some?)
              || (k == "relationships" && Truthy(Lookup(res, "relationships")))
              || Has(Stamp(res), k)
    ensures forall k :: k != "_self" && k != "relationships" ==> Lookup(r, k) == Lookup(Stamp(res), k)
  {
    var rels := Lookup(res, "relationships");
    var r := if Truthy(rels) then Put(WithSelf(res), "relationships", rels) else WithSelf(res);
    assert Lookup(r, "id") == Lookup(Stamp(res), "id");
    assert Lookup(r, "_type") == Lookup(Stamp(res), "_type");
    r
  }

  /** `parse(resource)`. `id` and `_type` are always set from the resource,
      whatever the attributes hold under those names. */
  function Parse(res: Props): (r: Props)
    ensures Lookup(r, "id") == ParseValue(Lookup(res, "id"))
    ensures Lookup(r, "_type") == ParseValue(Lookup(res, "type"))
  {
    MetaKeysArePlain();
    ParseWithNamesPlainKey(Flatten(res), "id");
    ParseWithNamesPlainKey(Flatten(res), "_type");
    ParseWithNames(Flatten(res))
  }

  /** `_self` is present exactly when the resource has a truthy `self` link
      or an attribute named `_self`, and then the link wins. */
  lemma ParseSelf(res: Props)
    ensures Has(Parse(res), "_self") <==>
              SelfLink(res).Some? || (Truthy(Lookup(res, "attributes")) && Has(Entries(Lookup(res, "attributes")), "_self"))
    ensures SelfLink(res).Some? ==> Lookup(Parse(res), "_self") == ParseValue(SelfLink(res).value)
  {
    MetaKeysArePlain();
    ParseWithNamesPlainKey(Flatten(res), "_self");
  }

  /** `relationships` is present exactly when the resource has truthy
      relationships or an attribute of that name, and then the resource's
      relationships win. */
  lemma ParseRelationships(res: Props)
    ensures Has(Parse(res), "relationships") <==>
              Truthy(Lookup(res, "relationships"))
              || (Truthy(Lookup(res, "attributes")) && Has(Entries(Lookup(res, "attributes")), "relationships"))
    ensures Truthy(Lookup(res, "relationships")) ==>
              Lookup(Parse(res), "relationships") == ParseValue(Lookup(res, "relationships"))
  {
    MetaKeysArePlain();
    ParseWithNamesPlainKey(Flatten(res), "relationships");
  }

  /** Every attribute key is hoisted to the top level, renamed. */
  lemma ParseHoistsAttributes(res: Props, k: string)
    requires Truthy(Lookup(res, "attributes")) && Has(Entries(Lookup(res, "attributes")), k)
    ensures Has(Parse(res), Camelize(k))
  {
    var flat := Flatten(res);
    assert Has(flat, k);
    KeysIndex(flat, k);
    var i :| 0 <= i < |flat| && flat[i].key == k;
    ParseWithNamesKeys(flat, Camelize(k));
  }

  /** An attribute whose name has no upper-case letter or digit and is not
      one of the names `parse` sets itself reads back renamed. */
  lemma ParseKeepsPlainAttribute(res: Props, k: string)
    requires PlainKey(k)
    requires k != "id" && k != "_type" && k != "_self" && k != "relationships"
    requires Truthy(Lookup(res, "attributes"))
    requires Has(Entries(Lookup(res, "attributes")), k)
    ensures Lookup(Parse(res), k) == ParseValue(Member(Lookup(res, "attributes"), k))
  {
    ParseWithNamesPlainKey(Flatten(res), k);
  }

  /** Every key the parsed resource holds, at every level, is renamed. */
  lemma ParseIsDeepCamel(res: Props)
    ensures DeepCamelProps(Parse(res))
  {
    FoldDeepCamel(Flatten(res), []);
  }
}

=== FILE: store.dfy ===
/** The resource cache of packages/vuex-store/src/store/index.ts: the
    `getState` getter and the `setState` and `reactiveUpdate` mutations.

    The Vuex state object maps a type to a bucket that maps an id to a
    record. Record identity is modelled by an arena: a bucket holds a
    `Handle`, the arena holds the record's properties under that handle, and
    "mutating the cached object in place" is overwriting the arena entry of a
    handle that stays where it was. `next` is the first handle never handed
    out, so a freshly built object gets a handle nothing else refers to.
 */
module Store {
  import opened JsValue

  type Handle = nat

  datatype Store = Store(buckets: map<string, map<string, Handle>>, arena: map<Handle, Props>, next: Handle)

  const Empty := Store(map[], map[], 0)

  datatype Fault =
    | MissingTypeOrResource   // thrown by setState
    | MissingTypeKeyOrValue   // thrown by reactiveUpdate
    | TypeError               // a property read on undefined, or a write to a primitive

  datatype Result<T> = Ok(value: T) | Err(fault: Fault)

  datatype Mutation = Set | Delete

  /** The state after a step that either completed with a value or threw. A
      throw does not roll back what the step had already written. */
  datatype Step<T> = Done(value: T, store: Store) | Threw(store: Store)

  /** Every handle in a bucket names a record, and every record's handle is
      below `next`. */
  ghost predicate Valid(s: Store)
  {
    && (forall h :: h in s.arena ==> h < s.next)
    && (forall t, k :: t in s.buckets && k in s.buckets[t] ==> s.buckets[t][k] in s.arena)
  }

  /** The handle stored at `state[t][k]`, if any. */
  function Entry(s: Store, t: string, k: string): Option<Handle>
  {
    if t in s.buckets && k in s.buckets[t] then Some(s.buckets[t][k]) else None
  }

  /** No bucket refers to `h`. */
  ghost predicate Unreferenced(s: Store, h: Handle)
  {
    forall t, k :: t in s.buckets && k in s.buckets[t] ==> s.buckets[t][k] != h
  }

  datatype Allocation = Allocation(handle: Handle, store: Store)

  /** A freshly built object enters the heap under a new handle. */
  function Alloc(s: Store, rec: Props): (a: Allocation)
    requires Valid(s)
    ensures a.handle !in s.arena && Unreferenced(s, a.handle)
    ensures a.store.arena == s.arena[a.handle := rec]
    ensures a.store.buckets == s.buckets
    ensures a.store.next > a.handle
    ensures Valid(a.store)
  {
    Allocation(s.next, s.(arena := s.arena[s.next := rec], next := s.next + 1))
  }

  /** `Object.assign(record, src)` on the record at `h`: its properties are
      overwritten in place, so every holder of `h` sees the new values. */
  function MergeInto(s: Store, h: Handle, src: Props): (r: Store)
    requires h in s.arena
    ensures r.buckets == s.buckets && r.next == s.next && r.arena.Keys == s.arena.Keys
    ensures forall h' :: h' in s.arena && h' != h ==> r.arena[h'] == s.arena[h']
    ensures forall k :: Lookup(r.arena[h], k) == (if Has(src, k) then Lookup(src, k) else Lookup(s.arena[h], k))
    ensures Valid(s) ==> Valid(r)
  {
    s.(arena := s.arena[h := Assign(s.arena[h], src)])
  }

  // ---------------------------------------------------------------------------
  // getState
  // ---------------------------------------------------------------------------

  /** The id the getter works with: its parameter defaults to null. */
  function GetterId(id: Value): Value
  {
    if id.Undefined? then Null else id
  }

  /** `id = id || String(id)` followed by `id === "null"`: only a missing or
      null id, or the string "null" itself, asks for the sole record. */
  predicate AsksForSole(id: Value)
  {
    GetterId(id) == Null || GetterId(id) == Str("null")
  }

  lemma SingletonKeys(m: map<string, Handle>)
    requires |m| == 1
    ensures exists k :: m.Keys == {k}
  {
    var k :| k in m;
    assert |m.Keys - {k}| == 0;
    assert m.Keys == {k};
  }

  /** The one value of a bucket holding a single record. */
  function Sole(m: map<string, Handle>): (h: Handle)
    requires |m| == 1
    ensures exists k :: m.Keys == {k} && m[k] == h
  {
    SingletonKeys(m);
    var k :| k in m;
    m[k]
  }

  /** `getState(type, id)`: the record at `state[type][key]`, where the key is
      the id as a string and a missing id reads as "null". When that misses and
      the caller asked for no particular id, the type's bucket answers if it
      holds exactly one record. */
  function GetState(s: Store, typ: Value, id: Value): (r: Option<Handle>)
    ensures var t := ToKey(typ);
            Entry(s, t, ToKey(GetterId(id))).Some? ==> r == Entry(s, t, ToKey(GetterId(id)))
    ensures var t := ToKey(typ);
            Entry(s, t, ToKey(GetterId(id))).None? ==>
              (r.Some? <==> AsksForSole(id) && t in s.buckets && |s.buckets[t]| == 1)
    ensures var t := ToKey(typ);
            r.Some? ==> t in s.buckets && r.value in s.buckets[t].Values
    ensures Valid(s) && r.Some? ==> r.value in s.arena
  {
    var t := ToKey(typ);
    var hit := Entry(s, t, ToKey(GetterId(id)));
    if hit.None? && AsksForSole(id) && t in s.buckets then
      if |s.buckets[t]| == 1 then Some(Sole(s.buckets[t])) else None
    else hit
  }

  // ---------------------------------------------------------------------------
  // setState
  // ---------------------------------------------------------------------------

  /** `setState({stateMutationType, type, id, resource})`: throws unless the
      type is truthy and a SET carries a resource; otherwise creates the type's
      bucket if needed and stores (SET) or removes (DELETE) `String(id)`. */
  function SetState(s: Store, mutation: Mutation, typ: Value, id: Value, resource: Option<Handle>): (r: Result<Store>)
    ensures r.Err? <==> !Truthy(typ) || (mutation == Set && resource.None?)
    ensures r.Err? ==> r.fault == MissingTypeOrResource
    ensures r.Ok? ==> r.value.arena == s.arena && r.value.next == s.next
    ensures r.Ok? ==> r.value.buckets.Keys == s.buckets.Keys + {ToKey(typ)}
    ensures r.Ok? && mutation == Set ==> Entry(r.value, ToKey(typ), ToKey(id)) == resource
    ensures r.Ok? && mutation == Delete ==> Entry(r.value, ToKey(typ), ToKey(id)) == None
    ensures r.Ok? ==> forall t, k :: (t != ToKey(typ) || k != ToKey(id)) ==> Entry(r.value, t, k) == Entry(s, t, k)
    ensures r.Ok? && Valid(s) && (resource.Some? ==> resource.value in s.arena) ==> Valid(r.value)
  {
    if !Truthy(typ) || (resource.None? && mutation == Set) then Err(MissingTypeOrResource)
    else
      var t := ToKey(typ);
      var k := ToKey(id);
      var bucket := if t in s.buckets then s.buckets[t] else map[];
      match mutation
      case Delete => Ok(s.(buckets := s.buckets[t := bucket - {k}]))
      case Set => Ok(s.(buckets := s.buckets[t := bucket[k := resource.value]]))
  }

  // ---------------------------------------------------------------------------
  // reactiveUpdate
  // ---------------------------------------------------------------------------

  /** `reactiveUpdate({type, id, key, value})`: throws when the type is falsy
      or the key or value is undefined; otherwise writes
      `state[type][String(id)].attributes[String(key)] = value`, which throws
      when there is no record there or its `attributes` is not an object. */
  function ReactiveUpdate(s: Store, typ: Value, id: Value, key: Value, value: Value): (r: Result<Store>)
    requires Valid(s)
    ensures !Truthy(typ) || key.Undefined? || value.Undefined? ==> r == Err(MissingTypeKeyOrValue)
    ensures r.Ok? <==> && Truthy(typ) && !key.Undefined? && !value.Undefined?
                       && Entry(s, ToKey(typ), ToKey(id)).Some?
                       && Lookup(s.arena[Entry(s, ToKey(typ), ToKey(id)).value], "attributes").Obj?
    ensures r.Ok? ==>
              var h := Entry(s, ToKey(typ), ToKey(id)).value;
              var before := Lookup(s.arena[h], "attributes").props;
              && r.value.buckets == s.buckets && r.value.next == s.next
              && r.value.arena.Keys == s.arena.Keys
              && (forall h' :: h' in s.arena && h' != h ==> r.value.arena[h'] == s.arena[h'])
              && (forall f :: f != "attributes" ==> Lookup(r.value.arena[h], f) == Lookup(s.arena[h], f))
              && Lookup(r.value.arena[h], "attributes").Obj?
              && Lookup(Lookup(r.value.arena[h], "attributes").props, ToKey(key)) == value
              && (forall a :: a != ToKey(key) ==>
                    Lookup(Lookup(r.value.arena[h], "attributes").props, a) == Lookup(before, a))
    ensures r.Ok? ==> Valid(r.value)
  {
    if !Truthy(typ) || key.Undefined? || value.Undefined? then Err(MissingTypeKeyOrValue)
    else
      match Entry(s, ToKey(typ), ToKey(id))
      case None => Err(TypeError)
      case Some(h) =>
        match Lookup(s.arena[h], "attributes")
        case Obj(attrs) =>
          Ok(s.(arena := s.arena[h := Put(s.arena[h], "attributes", Obj(Put(attrs, ToKey(key), value)))]))
        case _ => Err(TypeError)
  }

  // ---------------------------------------------------------------------------
  // The getter against the mutations
  // ---------------------------------------------------------------------------

  /** A SET is read back by the getter under the same type and id. */
  lemma GetAfterSet(s: Store, typ: Value, id: Value, h: Handle)
    requires Truthy(typ) && !id.Undefined?
    ensures SetState(s, Set, typ, id, Some(h)).Ok?
    ensures GetState(SetState(s, Set, typ, id, Some(h)).value, typ, id) == Some(h)
  {
  }

  /** A SET leaves the getter's answer for every other key as it was: for
      every other type, and for every other id of its own type unless that
      lookup may fall back to the sole record of the bucket. */
  lemma GetUnaffectedBySet(s: Store, typ: Value, id: Value, h: Handle, typ': Value, id': Value)
    requires Truthy(typ)
    requires ToKey(typ') != ToKey(typ) || (ToKey(GetterId(id')) != ToKey(id) && !AsksForSole(id'))
    ensures GetState(SetState(s, Set, typ, id, Some(h)).value, typ', id') == GetState(s, typ', id')
  {
    var s' := SetState(s, Set, typ, id, Some(h)).value;
    var t' := ToKey(typ');
    var k' := ToKey(GetterId(id'));
    assert Entry(s', t', k') == Entry(s, t', k');
    if t' != ToKey(typ) {
      assert s'.buckets == s.buckets[ToKey(typ) := s'.buckets[ToKey(typ)]];
      assert t' in s'.buckets <==> t' in s.buckets;
      if t' in s.buckets {
        assert s'.buckets[t'] == s.buckets[t'];
      }
    }
  }

  /** After a DELETE the getter no longer finds the record by its id. */
  lemma GetAfterDelete(s: Store, typ: Value, id: Value)
    requires Truthy(typ) && !id.Undefined? && !AsksForSole(id)
    ensures SetState(s, Delete, typ, id, None).Ok?
    ensures GetState(SetState(s, Delete, typ, id, None).value, typ, id) == None
  {
  }

  /** A single-field write changes what the getter returns for no key: the
      record keeps its handle. */
  lemma ReactiveUpdateKeepsIdentity(s: Store, typ: Value, id: Value, key: Value, value: Value, typ': Value, id': Value)
    requires Valid(s)
    requires ReactiveUpdate(s, typ, id, key, value).Ok?
    ensures GetState(ReactiveUpdate(s, typ, id, key, value).value, typ', id') == GetState(s, typ', id')
  {
  }
}

=== FILE: value.dfy ===
/** JavaScript values as the cache handles them.

    A plain object is an ordered property list: `Put` keeps the position of a
    key that is already present and appends a new one, which is how property
    assignment orders `Object.keys`. A read returns the value of the LAST
    binding of a key, so a list that repeats a key still reads like an object
    into which the bindings were assigned in order. Nested objects and arrays
    are held by value; identity only matters for the records of the cache,
    which live in the store's arena (module Store).
 */
module JsValue {

  datatype Option<T> = None | Some(value: T)

  /** Outcome of a call into code outside the model (the transport, the
      denormaliser): it either returns a value or throws. */
  datatype Call<T> = Failed | Succeeded(value: T)

  datatype Value =
    | Undefined
    | Null
    | Bool(b: bool)
    | Num(n: int)
    | Str(s: string)
    | Arr(items: seq<Value>)
    | Obj(props: Props)

  datatype Prop = Prop(key: string, val: Value)

  type Props = seq<Prop>

  // ---------------------------------------------------------------------------
  // Property lists
  // ---------------------------------------------------------------------------

  /** `Object.keys`, in property order. */
  function Keys(ps: Props): (ks: seq<string>)
    ensures |ks| == |ps|
    ensures forall i :: 0 <= i < |ps| ==> ks[i] == ps[i].key
  {
    if ps == [] then [] else [ps[0].key] + Keys(ps[1..])
  }

  predicate Has(ps: Props, k: string)
  {
    k in Keys(ps)
  }

  /** `o[k]`: the value of the last binding of `k`, `undefined` when absent. */
  function Lookup(ps: Props, k: string): (v: Value)
    ensures !Has(ps, k) ==> v == Undefined
  {
    if ps == [] then Undefined
    else if ps[0].key == k && !Has(ps[1..], k) then ps[0].val
    else Lookup(ps[1..], k)
  }

  /** `o[k] = v`. */
  function Put(ps: Props, k: string, v: Value): (r: Props)
    ensures Lookup(r, k) == v
    ensures forall k' :: k' != k ==> Lookup(r, k') == Lookup(ps, k')
    ensures Has(ps, k) ==> Keys(r) == Keys(ps)
    ensures !Has(ps, k) ==> Keys(r) == Keys(ps) + [k]
    ensures forall k' :: Has(r, k') <==> Has(ps, k') || k' == k
  {
    if ps == [] then [Prop(k, v)]
    else if ps[0].key == k && !Has(ps[1..], k) then [Prop(k, v)] + ps[1..]
    else [ps[0]] + Put(ps[1..], k, v)
  }

  lemma {:induction false} KeysIndex(ps: Props, k: string)
    ensures Has(ps, k) <==> exists j :: 0 <= j < |ps| && ps[j].key == k
  {
    if ps != [] {
      KeysIndex(ps[1..], k);
      if Has(ps[1..], k) {
        var j :| 0 <= j < |ps[1..]| && ps[1..][j].key == k;
        assert ps[j + 1].key == k;
      }
      if exists j :: 0 <= j < |ps| && ps[j].key == k {
        var j :| 0 <= j < |ps| && ps[j].key == k;
        if j > 0 {
          assert ps[1..][j - 1].key == k;
        }
      }
    }
  }

  /** `Object.assign(target, source)`: every own property of `source`, in
      order, is assigned onto `target`; nested values are copied wholesale. */
  function Assign(target: Props, source: Props): (r: Props)
    ensures forall k :: Lookup(r, k) == (if Has(source, k) then Lookup(source, k) else Lookup(target, k))
    ensures forall k :: Has(r, k) <==> Has(target, k) || Has(source, k)
    decreases source
  {
    if source == [] then target
    else Assign(Put(target, source[0].key, source[0].val), source[1..])
  }

  // ---------------------------------------------------------------------------
  // Coercions
  // ---------------------------------------------------------------------------

  /** JavaScript truthiness. */
  predicate Truthy(v: Value)
  {
    match v
    case Undefined => false
    case Null => false
    case Bool(b) => b
    case Num(n) => n != 0
    case Str(s) => s != ""
    case Arr(_) => true
    case Obj(_) => true
  }

  /** `_.isObject`: arrays and plain objects. */
  predicate IsObject(v: Value)
  {
    v.Arr? || v.Obj?
  }

  predicate IsNullish(v: Value)
  {
    v.Undefined? || v.Null?
  }

  function DigitChar(d: nat): char
    requires d < 10
  {
    "0123456789"[d]
  }

  function Digits(n: nat): (r: string)
    ensures |r| > 0
    ensures forall i :: 0 <= i < |r| ==> '0' <= r[i] <= '9'
  {
    if n < 10 then [DigitChar(n)] else Digits(n / 10) + [DigitChar(n % 10)]
  }

  /** Decimal rendering of an integer, as `String(n)` prints it. */
  function DecimalString(n: int): string
  {
    if n < 0 then "-" + Digits(-n) else Digits(n)
  }

  /** `String(v)`, which is also how a value used as a property key is read. */
  function ToKey(v: Value): string
    decreases Size(v), 1
  {
    match v
    case Undefined => "undefined"
    case Null => "null"
    case Bool(b) => if b then "true" else "false"
    case Num(n) => DecimalString(n)
    case Str(s) => s
    case Obj(_) => "[object Object]"
    case Arr(items) => JoinItems(items)
  }

  /** `Array.prototype.join(",")`, which renders null and undefined as "". */
  function JoinItems(items: seq<Value>): string
    decreases SizeSeq(items), 0
  {
    if items == [] then ""
    else
      var head := if IsNullish(items[0]) then "" else ToKey(items[0]);
      if |items| == 1 then head else head + "," + JoinItems(items[1..])
  }

  // ---------------------------------------------------------------------------
  // Own enumerable properties
  // ---------------------------------------------------------------------------

  function Size(v: Value): nat
  {
    match v
    case Arr(items) => 1 + SizeSeq(items)
    case Obj(props) => 1 + SizeProps(props)
    case _ => 1
  }

  function SizeSeq(items: seq<Value>): nat
  {
    if items == [] then 0 else 1 + Size(items[0]) + SizeSeq(items[1..])
  }

  function SizeProps(ps: Props): nat
  {
    if ps == [] then 0 else 1 + Size(ps[0].val) + SizeProps(ps[1..])
  }

  function IndexedItems(items: seq<Value>, start: nat): (r: Props)
    ensures SizeProps(r) == SizeSeq(items)
    ensures |r| == |items|
  {
    if items == [] then []
    else [Prop(DecimalString(start), items[0])] + IndexedItems(items[1..], start + 1)
  }

  function IndexedChars(s: string, start: nat): (r: Props)
    ensures |r| == |s|
  {
    if s == [] then []
    else [Prop(DecimalString(start), Str([s[0]]))] + IndexedChars(s[1..], start + 1)
  }

  /** The own enumerable properties of a value, as `Object.keys` and
      `_.extend` see them: an object's properties, an array's or a string's
      indices, and nothing for the other primitives. */
  function Entries(v: Value): (r: Props)
    ensures v.Obj? ==> r == v.props
    ensures v.Arr? ==> |r| == |v.items|
    ensures IsObject(v) ==> SizeProps(r) < Size(v)
  {
    match v
    case Obj(props) => props
    case Arr(items) => IndexedItems(items, 0)
    case Str(s) => IndexedChars(s, 0)
    case _ => []
  }

  /** `v[k]` on a value that is neither null nor undefined. */
  function Member(v: Value, k: string): Value
  {
    Lookup(Entries(v), k)
  }
}
